=== FILE: README.md ===
# HR-ops portal core, modelled in Dafny

This project models the logic at the centre of an HR operations portal, a
Next.js app with three parts:

- **The calendar page** (`src/app/calendar/page.tsx`). It lists company
  events in a month grid of 42 cells that starts on a Monday. It groups the
  events by their `date` text, colours each one by an explicit colour, else
  by its type, else by a default, and sends create, update and delete
  requests. Its state (events, loading flag, month cursor, modal, event
  being edited) is the class `CalendarPage.CalendarPage`; each handler is a
  method.
- **The personnel-department dashboard** (`src/app/dp/DpDashboard.tsx`,
  with the record types of `src/lib/dp-service.ts`). It filters the PJ
  (contractor) closing items by three selectors, where "Todas" matches
  everything. It also computes the PJ total and the termination total,
  exports a `;`-separated CSV, and walks a four-step wizard. Its state is
  the class `DpDashboard.Dashboard`.
- **Two proxy routes** to a Google Apps Script web app:
  - `src/app/api/gs/route.ts` copies `route` and `id` onto the configured
    URL, always adds the server key, and turns any upstream answer it
    can read into JSON. A request or upstream body that cannot be read
    escapes the handler.
  - `src/app/api/calendar/route.ts` builds its URL by string
    interpolation. It adds the key to the GET query and to the POST body.

Dates are day numbers counted from 1970-01-01. Civil dates are
(year, month index from 0, day), as `getFullYear`, `getMonth` and
`getDate` report them. Amounts of money are whole centavos, so sums are
exact. The world outside the code is passed in as function-typed
parameters: the environment, `fetch` with `res.text()`, `JSON.parse`,
`JSON.stringify`, `new URL` and `encodeURIComponent`. The result of the
gs route's `req.text()` is part of its request, absent when the read
rejects.

What the proofs establish:

- `eventsByDay` puts every event in exactly the bucket of its date, in
  list order, with no empty bucket and no event lost.
- The month grid is 42 consecutive days starting on the Monday on or
  before the 1st. It contains the whole month and stays within the
  neighbouring months.
- "Previous month" and "next month" each step exactly one calendar month
  precisely when the cursor's year is not one of 0 to 99, which `new Date`
  reads as 1900 to 1999. Back and then forward returns to the same month,
  across year ends too, for every cursor outside those years except
  January of year 100. Forward and then back does so for every such cursor
  except December of year -1. Back from January of year 100 and forward
  again lands on January 2000.
- The cells the page marks as the shown month (by comparing `getMonth()`
  only) are exactly that month's days.
- `monthKey` round-trips.
- The PJ filter is an order-preserving sub-list. It keeps exactly the
  matching items, each as often as it occurs.
- The PJ total is the sum over that list.
- The CSV splits back into its header and rows when no field holds a
  separator. The amount column reads back as the amount. A `;` inside a
  partner name shifts the columns, because nothing is escaped.
- The wizard step never leaves 0..3.
- The gs proxy never forwards the client's key. The key occurs exactly
  once in the upstream URL, and every other parameter of the configured
  URL survives.
- The upstream URL of the calendar POST carries no key. The server key
  goes in the JSON body (`Payload`) and replaces any key the client sent.
  The URL reads back the route and id the page sent.

## Model

| member | source | states |
|---|---|---|
| CalendarDates.DaysInMonth | src/app/calendar/page.tsx:79-83 | a month has 28 to 31 days, and February has 29 exactly in a Gregorian leap year |
| CalendarDates.MonthsMakeYear | src/app/calendar/page.tsx:79-83 | the twelve month lengths add up to the year length, 365 or 366 |
| CalendarDates.YearsFollow | src/app/calendar/page.tsx:79-83 | the 1st of January of year y+1 comes 365 or 366 days (as y is leap) after that of year y |
| CalendarDates.DayNumber | src/app/calendar/page.tsx:79-83 | the day number of a date; in January 1970 day d is number d-1, and DaysOfMonth, NextMonthFollows and YearsFollow lay the rest out |
| CalendarDates.Weekday | src/app/calendar/page.tsx:81 | `getDay()` always lies in 0..6 |
| CalendarDates.CalendarAnchors | src/app/calendar/page.tsx:81 | day 0 is 1970-01-01, a Thursday (4), and 2024-01-01 is a Monday, so the day line is anchored like JavaScript's |
| CalendarDates.FollowingMonth | src/app/calendar/page.tsx:183-190 | the 1st of the next calendar month: the month index grows by one |
| CalendarDates.PrecedingMonth | src/app/calendar/page.tsx:183-190 | the 1st of the previous calendar month: the month index shrinks by one |
| CalendarDates.CalendarMonthsInverse | src/app/calendar/page.tsx:183-190 | the next and previous calendar months undo each other, across year ends too |
| CalendarDates.FullYear | src/app/calendar/page.tsx:51 | the year `new Date` uses: 1900+y for a year argument of 0 to 99, the argument itself otherwise |
| CalendarDates.MonthStart | src/app/calendar/page.tsx:49-52 | `new Date(y, m, 1)` for any month index is the 1st of a valid month, with index 12*FullYear(y)+m (overflowing months carry into the year) |
| CalendarDates.PrevMonth | src/app/calendar/page.tsx:183 | the "previous month" button gives the 1st of the month with index 12*FullYear(year)+month-1 |
| CalendarDates.NextMonth | src/app/calendar/page.tsx:190 | the "next month" button gives the 1st of the month with index 12*FullYear(year)+month+1 |
| CalendarDates.ButtonsStepOneMonth | src/app/calendar/page.tsx:183-190 | the previous-month and next-month buttons step exactly one calendar month if and only if the cursor's year is not one of 0 to 99 |
| CalendarDates.PrevNextInverse | src/app/calendar/page.tsx:183-190 | back then forward returns to the cursor if and only if its year is not one of 0 to 99 and it is not January of year 100; forward then back, if and only if its year is not one of 0 to 99 and it is not December of year -1 |
| CalendarDates.TwoDigitYearJump | src/app/calendar/page.tsx:183-190 | next to the two-digit years they do not: back from 0100-01 is 0099-12, and forward from 0099-12 is 2000-01 |
| CalendarDates.Shown | src/app/calendar/page.tsx:79 | the month the grid draws for a cursor: the cursor's month in year FullYear(year), the cursor itself outside the years 0..99 |
| CalendarDates.FirstOfMonth | src/app/calendar/page.tsx:79 | the day number of the 1st of a date's month lies day-1 before the date |
| CalendarDates.DaysOfMonth | src/app/calendar/page.tsx:79-83 | the days of a month are numbered consecutively from its 1st |
| CalendarDates.NextMonthFollows | src/app/calendar/page.tsx:79-83 | the 1st of the next month lies exactly DaysInMonth days after the 1st of this one: months tile the day line |
| CalendarDates.LaterMonthStartsLater | src/app/calendar/page.tsx:79-83 | a month with a larger index starts no earlier than the end of a smaller one |
| CalendarDates.MonthsDisjoint | src/app/calendar/page.tsx:219 | a day lies in one month only |
| CalendarDates.MonthOf | src/app/calendar/page.tsx:219 | `getFullYear()`/`getMonth()` of a day: the month that contains it |
| CalendarDates.MonthOfUnique | src/app/calendar/page.tsx:219 | a day's month is some cursor exactly when the day lies in that cursor's month |
| CalendarDates.MonthDigits | src/app/calendar/page.tsx:38 | `String(m+1).padStart(2,'0')` is two digits that read back as m+1 |
| CalendarDates.MonthKey | src/app/calendar/page.tsx:38 | `monthKey`: the year, a dash and the two-digit month; MonthKeyRoundTrip states that it reads back as the year and the month |
| CalendarDates.MonthKeyRoundTrip | src/app/calendar/page.tsx:38 | the text of `monthKey` reads back as the year and the month index |
| CalendarDates.MonthKeyInjective | src/app/calendar/page.tsx:38 | two cursors with the same key are the same month |
| CalendarDates.MondayOffset | src/app/calendar/page.tsx:81 | `(getDay()+6)%7` lies in 0..6 |
| CalendarDates.BackToMonday | src/app/calendar/page.tsx:81 | stepping back that offset from any day lands on a Monday |
| CalendarDates.GridStart | src/app/calendar/page.tsx:79-81 | the grid starts on a Monday, 0 to 6 days before the 1st of the given month |
| CalendarDates.MonthGrid | src/app/calendar/page.tsx:78-85 | the loop builds 42 consecutive days from the Monday on or before the 1st of the month `new Date` reads the cursor as (Shown); every day d of that month is in it, at index offset+d-1 |
| CalendarDates.GridWithinNeighbourMonths | src/app/calendar/page.tsx:78-85 | the 42 days lie between the 1st of the previous month and the end of the next month, and those two months differ from the cursor's |
| CalendarDates.GridMarksOwnMonth | src/app/calendar/page.tsx:217-219 | a cell's `getMonth()` equals the cursor's month exactly when the cell lies in the month the grid shows |
| CalendarDates.GridCellMonth | src/app/calendar/page.tsx:217-219 | each of the 42 cells of a month's grid has that month's number exactly when it lies in that month |
| CalendarDates.NeighbourDayMonth | src/app/calendar/page.tsx:219 | between the 1st of the previous month and the end of the next one, the month number alone decides whether a day is in the month |
| CalendarEvents.TypeKeysDistinct | src/app/calendar/page.tsx:30-36 | the five event types have distinct keys |
| CalendarEvents.FindTypeColor | src/app/calendar/page.tsx:99 | `TYPES.find` gives the colour of the first entry with that key, and nothing exactly when no entry has it |
| CalendarEvents.ColorFor | src/app/calendar/page.tsx:97-101 | a non-empty explicit colour wins; otherwise the colour of the event's type; otherwise the default #60a5fa |
| CalendarEvents.AddToBucket | src/app/calendar/page.tsx:90-92 | one step of the loop: append the event to the bucket of its date, opening it if needed; GroupedTotal and GroupedContents state what the steps add up to |
| CalendarEvents.Grouped | src/app/calendar/page.tsx:87-95 | the buckets after all the events in order; GroupedKeys, GroupedContents, GroupedMembership and GroupedTotal specify it |
| CalendarEvents.OnDate | src/app/calendar/page.tsx:87-95 | the reference grouping: the events of one date, in order, and all of them |
| CalendarEvents.GroupedKeys | src/app/calendar/page.tsx:87-95 | there is a bucket exactly for each date that occurs |
| CalendarEvents.GroupedContents | src/app/calendar/page.tsx:87-95 | each bucket holds exactly the events of its date, in list order, and is never empty |
| CalendarEvents.GroupedTotal | src/app/calendar/page.tsx:87-95 | the buckets together hold as many events as the list |
| CalendarEvents.GroupedMembership | src/app/calendar/page.tsx:87-95 | every event is in the bucket of its own date |
| CalendarEvents.EventsByDay | src/app/calendar/page.tsx:87-95 | the loop yields the grouping, with all of the properties above |
| CalendarPage.ApiPostQuery | src/app/calendar/page.tsx:24-25 | the URL of `apiPost` carries the route, and the id only when it is truthy |
| CalendarPage.ApiPostReachesHandler | src/app/calendar/page.tsx:24-28 | for the page's three lower-case routes, the POST handler reads back the same route and forwards the id exactly when the page sent one |
| CalendarPage.NewEvent | src/app/calendar/page.tsx:104-113 | a new event has every text field empty, no id and the chosen date |
| CalendarPage.NewEventColor | src/app/calendar/page.tsx:97-113 | a new event is drawn in the default colour, and in its type's colour once a type is chosen: its empty colour never wins |
| CalendarPage.SaveRequest | src/app/calendar/page.tsx:125-131 | a truthy id gives an update that carries the id apart from the rest of the event; otherwise a create that carries the event as it is |
| CalendarPage.SaveRequestForwarded | src/app/calendar/page.tsx:125-131 | an update reaches the route with the event's id, and a create with none |
| CalendarPage.Refreshed | src/app/calendar/page.tsx:65-76 | an ok reply replaces the events with `data` (or none); a failed or thrown one keeps them |
| CalendarPage.CalendarPage.constructor | src/app/calendar/page.tsx:42-57 | no events, loading, the editor closed, the cursor on the 1st of the current month (month index 12*FullYear(year)+month) |
| CalendarPage.CalendarPage.Refresh | src/app/calendar/page.tsx:65-76 | the events become Refreshed(old events, reply), loading ends, and nothing else changes |
| CalendarPage.CalendarPage.OpenCreate | src/app/calendar/page.tsx:103-115 | the editor opens on a new event dated `dateStr`, or today when that is missing or empty |
| CalendarPage.CalendarPage.OpenEdit | src/app/calendar/page.tsx:116-119 | the editor opens on a copy of the event |
| CalendarPage.CalendarPage.Close | src/app/calendar/page.tsx:271 | the modal closes and the edited event is kept |
| CalendarPage.CalendarPage.SaveEvent | src/app/calendar/page.tsx:121-139 | with nothing in the editor nothing is sent; otherwise SaveRequest is sent, and only an ok reply closes and clears the editor and refreshes |
| CalendarPage.CalendarPage.DeleteEvent | src/app/calendar/page.tsx:141-149 | a delete is sent exactly when the edited event has a truthy id and the user confirms; only an ok reply closes, clears and refreshes |
| CalendarPage.CalendarPage.GoPrevious | src/app/calendar/page.tsx:183 | the cursor becomes PrevMonth of the old one (index 12*FullYear(year)+month-1), which is the previous calendar month if and only if the old year is not one of 0 to 99, and nothing else changes |
| CalendarPage.CalendarPage.GoNext | src/app/calendar/page.tsx:190 | the cursor becomes NextMonth of the old one (index 12*FullYear(year)+month+1), which is the next calendar month if and only if the old year is not one of 0 to 99, and nothing else changes |
| CalendarPage.BackAndForth | src/app/calendar/page.tsx:183-190 | clicking back and then forward gives NextMonth(PrevMonth(cursor)), which is the starting month again if and only if the year is not one of 0 to 99 and the cursor is not January of year 100 |
| CalendarRoute.JsText | src/app/api/calendar/route.ts:4-5 | an unset variable is interpolated as the text "undefined" |
| CalendarRoute.NonEmpty | src/app/api/calendar/route.ts:18 | a parameter counts only when it is present and non-empty, as JavaScript's truthiness has it |
| CalendarRoute.TemplateUrl | src/app/api/calendar/route.ts:21-34 | the interpolated URL starts with the base and `?`; TemplateUrlSpelled writes out the rest |
| CalendarRoute.TemplateUrlSpelled | src/app/api/calendar/route.ts:21 | the template URL written out: base, `?`, then name=encoded value pairs joined by `&` |
| CalendarRoute.GetRoute | src/app/api/calendar/route.ts:18-19 | a missing or empty route, and exactly "list", become "calendar_list"; any other route is kept |
| CalendarRoute.GetParams | src/app/api/calendar/route.ts:21 | the upstream GET query is exactly `route`, then `key` |
| CalendarRoute.PostRoute | src/app/api/calendar/route.ts:30 | the POST route is the incoming one lower-cased, or empty; it is never checked |
| CalendarRoute.PostParams | src/app/api/calendar/route.ts:28-34 | the upstream POST query is the route, then the id only when it is non-empty, and never a key |
| CalendarRoute.Payload | src/app/api/calendar/route.ts:33 | the payload holds every field of the client's body except `key`, which is the server key; with the key unset the property is dropped |
| CalendarRoute.FetchJson | src/app/api/calendar/route.ts:7-13 | a JSON answer is passed on; any other text gives an envelope with the upstream status and the whole text; an exception from `fetch` or from `r.text()` is not caught |
| CalendarRoute.Reply | src/app/api/calendar/route.ts:22-23 | the handler answers 200 with what fetchJson returned, or ends with the uncaught exception |
| CalendarRoute.HandleGet | src/app/api/calendar/route.ts:15-24 | one GET with `cache: no-store` to the template URL; the answer is 200 with fetchJson's result, and it is uncaught exactly when `fetch` or `r.text()` throws |
| CalendarRoute.HandlePost | src/app/api/calendar/route.ts:26-41 | one JSON POST with `no-store` to the template URL, carrying the stringified payload of the parsed body (`{}` when it does not parse) |
| DpService.StatusLabelsDistinct | src/lib/dp-service.ts:3 | the four status labels are distinct, and none is "Todas" |
| DpDashboard.Keeps | src/app/dp/DpDashboard.tsx:46-53 | an item passes when each of the three selectors (Accepts) is "Todas" or equals the item's field; FilterPj, NoFilterKeepsAll and StatusSelection state it over the list |
| DpDashboard.FilterPj | src/app/dp/DpDashboard.tsx:46-53 | an item is in the filtered list exactly when it is in the snapshot and all three selectors accept it |
| DpDashboard.FilterIsSubsequence | src/app/dp/DpDashboard.tsx:46-53 | the filtered list keeps the snapshot's order |
| DpDashboard.FilterCounts | src/app/dp/DpDashboard.tsx:46-53 | a kept item occurs as often as in the snapshot; any other item never occurs |
| DpDashboard.NoFilterKeepsAll | src/app/dp/DpDashboard.tsx:41-53 | with the three selectors at "Todas" the list is the whole snapshot |
| DpDashboard.StatusSelection | src/app/dp/DpDashboard.tsx:50 | choosing one status and nothing else keeps exactly the items with that status |
| DpDashboard.ReduceValor | src/app/dp/DpDashboard.tsx:55 | the `reduce` that adds `valor` from the left; ReduceIsSum says it is the sum |
| DpDashboard.ReduceIsSum | src/app/dp/DpDashboard.tsx:55 | the left fold with accumulator acc equals acc plus the sum of `valor` |
| DpDashboard.PjTotal | src/app/dp/DpDashboard.tsx:55 | the PJ total is the sum of `valor` over the filtered items, and 0 when none remain |
| DpDashboard.PjTotalBounds | src/app/dp/DpDashboard.tsx:46-55 | with no negative amounts, a filtered total lies between 0 and the snapshot's total |
| DpDashboard.PjTotalUnfiltered | src/app/dp/DpDashboard.tsx:41-55 | with no filter the total is the snapshot's total |
| DpDashboard.TotalRescisao | src/app/dp/DpDashboard.tsx:57-64 | the termination total plus the deductions equals the five earnings |
| DpDashboard.Unsigned | src/app/dp/DpDashboard.tsx:74 | a non-negative amount is written as digits, a comma and two digits, and the text stands for the amount; it starts with 0 only for an amount under one real, so there are no extra leading zeros |
| DpDashboard.Money | src/app/dp/DpDashboard.tsx:74 | the amount column has at least four characters, all digits, comma or minus, starts with a minus exactly for a negative amount, and its digits start with 0 only for an amount under one real in size |
| DpDashboard.MoneyRoundTrip | src/app/dp/DpDashboard.tsx:74 | the amount column reads back as the amount in centavos |
| DpDashboard.CsvRow | src/app/dp/DpDashboard.tsx:69-77 | a row has one field per header, with id and partner first |
| DpDashboard.CsvTable | src/app/dp/DpDashboard.tsx:68-78 | the table is the header row, then the row of each filtered item in order |
| DpDashboard.RowIsPlain | src/app/dp/DpDashboard.tsx:69-77 | when an item's text fields hold no separator, neither does any field of its row (amounts and labels never do) |
| DpDashboard.HeadersArePlain | src/app/dp/DpDashboard.tsx:68 | no header holds a separator |
| DpDashboard.Csv | src/app/dp/DpDashboard.tsx:78 | the rows joined with `;` and the lines with a newline; CsvLayout and SeparatorInFieldShiftsColumns state how it splits back |
| DpDashboard.CsvLayout | src/app/dp/DpDashboard.tsx:68-78 | without separators inside fields, the export splits into 1+n lines: the headers, then each item's seven fields in order |
| DpDashboard.SeparatorInFieldShiftsColumns | src/app/dp/DpDashboard.tsx:71-78 | nothing is escaped: a partner name `a;b` gives a row that splits into eight fields, with every later column shifted right |
| DpDashboard.StepBack | src/app/dp/DpDashboard.tsx:349 | "Voltar" goes to step-1 and never below 0 |
| DpDashboard.StepForward | src/app/dp/DpDashboard.tsx:352 | "Avançar" goes to step+1 and never above 3 |
| DpDashboard.Walk | src/app/dp/DpDashboard.tsx:349-352 | the step after a sequence of "Voltar" and "Avançar" clicks; WalkStaysInRange bounds it |
| DpDashboard.WalkStaysInRange | src/app/dp/DpDashboard.tsx:349-352 | from a step in 0..3, any sequence of clicks stays in 0..3 |
| DpDashboard.AdvanceRepeatedly | src/app/dp/DpDashboard.tsx:352 | n clicks on "Avançar" reach step+n, capped at 3 |
| DpDashboard.Dashboard.constructor | src/app/dp/DpDashboard.tsx:40-44 | every selector at "Todas", step 0, no banner |
| DpDashboard.Dashboard.SelectCompetencia | src/app/dp/DpDashboard.tsx:180 | only the competência selector changes |
| DpDashboard.Dashboard.SelectArea | src/app/dp/DpDashboard.tsx:195 | only the área selector changes |
| DpDashboard.Dashboard.SelectStatus | src/app/dp/DpDashboard.tsx:210 | only the status selector changes |
| DpDashboard.Dashboard.Back | src/app/dp/DpDashboard.tsx:349 | the step becomes StepBack of the old step and stays in 0..3; nothing else changes |
| DpDashboard.Dashboard.Advance | src/app/dp/DpDashboard.tsx:352 | the step becomes StepForward of the old step and stays in 0..3; nothing else changes |
| DpDashboard.Dashboard.Export | src/app/dp/DpDashboard.tsx:66-90 | the CSV of the currently filtered items is handed over when the download succeeds, and the banner reports success or failure with the dashboard's two messages |
| GsRoute.Options | src/app/api/gs/route.ts:19-21 | the pre-flight answer is 204 with no body and the three CORS headers |
| GsRoute.MissingEnv | src/app/api/gs/route.ts:35-40 | a missing setting gives 500 with the `missing_env` error envelope and the CORS headers |
| GsRoute.ForwardedBody | src/app/api/gs/route.ts:57-60 | the body is forwarded as it is unless it is empty or all white space, and then it is `{}` |
| GsRoute.Normalize | src/app/api/gs/route.ts:62-83 | a thrown fetch gives 502 `fetch_failed` with the exception text; a failure while reading the body escapes the handler; a JSON answer is passed on with 200; any other text gives 200 `non_json_from_gs` quoting its first 400 characters |
| GsRoute.WithoutKeepsUnrouted | src/app/api/gs/route.ts:46-49 | removing `route`, `id` or `key` leaves all other pairs, with their order |
| GsRoute.SetKeepsUnrouted | src/app/api/gs/route.ts:46-49 | `set` on `route`, `id` or `key` leaves all other pairs, repeated names included, in their order |
| GsRoute.BuildTarget | src/app/api/gs/route.ts:46-49 | the upstream URL gets the route, the id only when it is present and non-empty, and the key exactly once; every other pair (repeats included, in order) and the rest of the URL are kept |
| GsRoute.ProxyToGS | src/app/api/gs/route.ts:31-84 | without both settings nothing is called; otherwise exactly one upstream call carries the route ("list" by default), the id, the server key and never the client's key, and keeps every other pair of the configured URL; GET keeps no body, and any other method is POSTed with the forwarded body; a non-GET request whose body cannot be read escapes before any upstream call; the answer is Normalize of the outcome |
| Http.Get | src/app/api/gs/route.ts:43-44 | `searchParams.get`; GetFirst states what it finds |
| Http.GetFirst | src/app/api/gs/route.ts:43-44 | `searchParams.get` gives nothing exactly when no pair has the name, and otherwise the value of the first pair that has it |
| Http.Set | src/app/api/gs/route.ts:47-49 | `searchParams.set` leaves the name exactly once, with the new value, and leaves every other name's value as it was |
| Http.SetKeepsOthers | src/app/api/gs/route.ts:47-49 | `searchParams.set` leaves the pairs of every other name untouched and in order |
| Http.Without | src/app/api/gs/route.ts:47-49 | removing a name removes every pair of it and no other |
| Json.SpreadFields | src/app/api/calendar/route.ts:33 | spreading an object copies its fields; null, booleans and numbers add none |
| Text.DecimalRoundTrip | src/app/calendar/page.tsx:38 | the decimal digits of a number read back as that number |
| Text.IntRoundTrip | src/app/calendar/page.tsx:38 | `String` on an integer is injective: the text reads back as the integer |
| Text.PadStart2 | src/app/calendar/page.tsx:38 | `padStart(2,'0')` keeps the text at the end and adds zeros in front up to two characters |
| Text.PaddedTwoDigits | src/app/calendar/page.tsx:38 | a number below 100, padded, is two digits that read back as the number |
| Text.Join | src/app/dp/DpDashboard.tsx:78 | `join(sep)`; SplitJoin says splitting gives the pieces back |
| Text.Split | src/app/dp/DpDashboard.tsx:78 | splitting a text at a separator gives at least one piece; the inverse of Join by SplitJoin |
| Text.SplitJoin | src/app/dp/DpDashboard.tsx:78 | splitting joined pieces that contain no separator gives the pieces back |
| Text.SplitJoinSeparatorInPiece | src/app/dp/DpDashboard.tsx:78 | a piece that contains the separator comes back as two pieces |
| Text.Trim | src/app/api/gs/route.ts:59 | `trim()` is the text with only its leading and trailing white space removed: a slice of the text, blank on both sides, and neither starting nor ending with white space |
| Text.TrimEmptyIffBlank | src/app/api/gs/route.ts:59 | `trim()` is empty exactly when the text is all ECMAScript white space |
| Text.AsciiLower | src/app/api/calendar/route.ts:30 | `toLowerCase` keeps the length and lower-cases each character |

## Left out

- The JSX rendering, the styles and the legend are left out. So are the `isAdmin` flag (page.tsx:46, 59-62), the `saving` flag (page.tsx:56) and the form's field handlers. The model treats every user as an admin.
- `toYMD` (page.tsx:39) is not modelled. It formats a local date as its UTC date, so the date under which a grid cell looks up its events depends on the time zone. The grid is modelled as day numbers.
- `monthName` (page.tsx:151) is left out, because `toLocaleDateString` depends on the locale.
- CalendarPage.CalendarPage.Refresh, CalendarPage.CalendarPage.SaveEvent, CalendarPage.CalendarPage.DeleteEvent: each asynchronous handler is modelled as one atomic step that takes the reply as a parameter. Clicks and other handlers that run while a `fetch` is pending are not modelled. For example, `SaveEvent` closes and clears the editor after its reply even if the user has since opened another event (src/app/calendar/page.tsx:133-135), and two refreshes may finish in either order.
- `alert` and `confirm` messages are not modelled. `confirm` becomes the `confirmed` parameter of `DeleteEvent`.
- `handleReport` and `formatCurrency` (DpDashboard.tsx:35-37, 92-115) are left out: they are locale-formatted text for a download. The termination total they print is `TotalRescisao`.
- The Blob, object URL and anchor click of the export are left out. Their success or failure becomes the `downloadOk` parameter of `Dashboard.Export`.
- The mock snapshot (dp-service.ts:56 onwards) and its loader are left out. The snapshot is flattened to `itens`, `filtros`, `casoAtual` and `ferias`.
- Money: amounts are whole centavos. `toFixed(2)`'s rounding of fractional centavos, its exponent notation for amounts of 10^21 or more, and floating-point sums are not modelled.
- Text.AsciiLower: lower-cases only A-Z, not the full Unicode mapping of `toLowerCase`. The page's routes are all ASCII.
- GsRoute.Normalize: quotes the first 400 characters. `slice(0, 400)` counts UTF-16 code units, so the two differ on text outside the Basic Multilingual Plane.
- Json.SpreadFields: spreading an array or a string into the payload (which copies its indices as keys) is not modelled; it adds no fields.
- CalendarDates.MonthStart: the range limit of `Date` is not modelled. A time beyond 8.64e15 ms either side of 1970 (after September 275760) is an Invalid Date in JavaScript, while `MonthStart`, `PrevMonth`, `NextMonth`, `Shown`, `GridStart`, `MonthGrid` and the page's `GoPrevious`/`GoNext` go on counting months. The two-digit-year rule is modelled: `ButtonsStepOneMonth`, `PrevNextInverse` and `BackAndForth` state exactly which cursors get a one-month step and a round trip, and `TwoDigitYearJump` shows the jump near year 100.
- CalendarEvents.EventsByDay: buckets are a map. The JavaScript object's inherited keys, such as a date text equal to "constructor", are not modelled.
- CalendarRoute.Reply: the `Content-Type` header that `NextResponse.json` sets is not modelled. The model gives the headers as empty.
- The gs route answers JSON bodies without the `content-type` header that `NextResponse.json` adds. Only the CORS headers are modelled.
- `encodeURIComponent`, `JSON.parse`, `JSON.stringify`, `new URL`, `fetch` and `res.text()` are parameters of the handlers. The exact percent-encoding and URL serialisation are not modelled.
- The `runtime` and `dynamic` route settings (gs/route.ts:8-9) are deployment configuration with no behaviour to model.

=== FILE: calendar_dates.dfy ===
/**
 * The date arithmetic of the calendar page (`src/app/calendar/page.tsx`):
 * the month cursor, its navigation, `monthKey`, and the 42-cell month grid
 * that starts on a Monday.
 *
 * A JavaScript `Date` in local time is modelled by the proleptic Gregorian
 * date it shows, and a day by its number counted from 1970-01-01 (day 0, a
 * Thursday). `DayNumber` and `FollowingMonth`/`PrecedingMonth` are plain
 * calendar arithmetic. `new Date(y, m, 1)` is `MonthStart`: it first reads a
 * year from 0 to 99 as 1900 + y and then carries an out-of-range month into
 * the year, so the page's buttons `PrevMonth`/`NextMonth` agree with the
 * plain calendar only away from those years.
 */
module CalendarDates {
  import opened Text

  /** A calendar date as `getFullYear`, `getMonth` (0 = January) and `getDate` report it. */
  datatype CivilDate = CivilDate(year: int, month: int, day: int)

  predicate ValidMonth(m: int) { 0 <= m < 12 }

  predicate IsLeapYear(y: int) { y % 4 == 0 && (y % 100 != 0 || y % 400 == 0) }

  function DaysInMonth(y: int, m: int): (n: int)
    requires ValidMonth(m)
    ensures 28 <= n <= 31
    ensures m == 1 ==> (n == 29 <==> IsLeapYear(y))
  {
    if m == 1 then (if IsLeapYear(y) then 29 else 28)
    else if m == 3 || m == 5 || m == 8 || m == 10 then 30
    else 31
  }

  function DaysInYear(y: int): int { if IsLeapYear(y) then 366 else 365 }

  /** The days of the months of year `y` before month `m`. */
  function DaysBeforeMonth(y: int, m: int): int
    requires 0 <= m <= 12
  {
    if m == 0 then 0 else DaysBeforeMonth(y, m - 1) + DaysInMonth(y, m - 1)
  }

  lemma MonthsMakeYear(y: int)
    ensures DaysBeforeMonth(y, 12) == DaysInYear(y)
  {
    var feb := DaysInMonth(y, 1);
    assert DaysBeforeMonth(y, 1) == 31;
    assert DaysBeforeMonth(y, 2) == 31 + feb;
    assert DaysBeforeMonth(y, 3) == 62 + feb;
    assert DaysBeforeMonth(y, 4) == 92 + feb;
    assert DaysBeforeMonth(y, 5) == 123 + feb;
    assert DaysBeforeMonth(y, 6) == 153 + feb;
    assert DaysBeforeMonth(y, 7) == 184 + feb;
    assert DaysBeforeMonth(y, 8) == 215 + feb;
    assert DaysBeforeMonth(y, 9) == 245 + feb;
    assert DaysBeforeMonth(y, 10) == 276 + feb;
    assert DaysBeforeMonth(y, 11) == 306 + feb;
  }

  /** For `y >= 0` the number of leap years in [0, y); for `y < 0` minus those in [y, 0). */
  function LeapYearsBefore(y: int): int
  {
    (y + 3) / 4 - (y + 99) / 100 + (y + 399) / 400
  }

  /** Days from 1 January of year 0 to 1 January of year `y`. */
  function DaysBeforeYear(y: int): int
  {
    365 * y + LeapYearsBefore(y)
  }

  /** `x / 4 == q` exactly when `q` is the quotient bracketing `x`. */
  lemma DivFour(x: int, q: int)
    requires 4 * q <= x < 4 * q + 4
    ensures x / 4 == q
  {
  }

  lemma DivHundred(x: int, q: int)
    requires 100 * q <= x < 100 * q + 100
    ensures x / 100 == q
  {
  }

  lemma DivFourHundred(x: int, q: int)
    requires 400 * q <= x < 400 * q + 400
    ensures x / 400 == q
  {
  }

  /** Passing a year adds one to the count of multiples of 4, 100 and 400 exactly when it is one. */
  lemma MultiplesStep(y: int)
    ensures (y + 4) / 4 - (y + 3) / 4 == if y % 4 == 0 then 1 else 0
    ensures (y + 100) / 100 - (y + 99) / 100 == if y % 100 == 0 then 1 else 0
    ensures (y + 400) / 400 - (y + 399) / 400 == if y % 400 == 0 then 1 else 0
  {
    var q4, q100, q400 := y / 4, y / 100, y / 400;
    DivFour(y + 4, q4 + 1);
    DivFour(y + 3, if y % 4 == 0 then q4 else q4 + 1);
    DivHundred(y + 100, q100 + 1);
    DivHundred(y + 99, if y % 100 == 0 then q100 else q100 + 1);
    DivFourHundred(y + 400, q400 + 1);
    DivFourHundred(y + 399, if y % 400 == 0 then q400 else q400 + 1);
  }

  /** Consecutive years start `DaysInYear` days apart. */
  lemma YearsFollow(y: int)
    ensures DaysBeforeYear(y + 1) == DaysBeforeYear(y) + DaysInYear(y)
  {
    MultiplesStep(y);
    CenturiesAreMultiples(y);
    var step := LeapYearsBefore(y + 1) - LeapYearsBefore(y);
    assert step == (if y % 4 == 0 then 1 else 0) - (if y % 100 == 0 then 1 else 0) + (if y % 400 == 0 then 1 else 0);
    assert step == if IsLeapYear(y) then 1 else 0;
  }

  lemma CenturiesAreMultiples(y: int)
    ensures y % 400 == 0 ==> y % 100 == 0
    ensures y % 100 == 0 ==> y % 4 == 0
  {
    if y % 400 == 0 {
      var q := y / 400;
      assert y == 400 * q;
      DivHundred(y, 4 * q);
    }
    if y % 100 == 0 {
      var q := y / 100;
      assert y == 100 * q;
      DivFour(y, 25 * q);
    }
  }

  /** The day number of a date; `day` may be out of range, as `new Date(y, m, d)` allows. */
  function DayNumber(d: CivilDate): (n: int)
    requires ValidMonth(d.month)
    ensures d.year == 1970 && d.month == 0 ==> n == d.day - 1
  {
    DaysBeforeYear(d.year) - DaysBeforeYear(1970) + DaysBeforeMonth(d.year, d.month) + d.day - 1
  }

  /** `getDay()`: 0 for Sunday up to 6 for Saturday. */
  function Weekday(n: int): (w: int)
    ensures 0 <= w < 7
  {
    (n + 4) % 7
  }

  const Monday: int := 1

  /** Day 0 is 1970-01-01, a Thursday; 2024-01-01 was a Monday. */
  lemma CalendarAnchors()
    ensures DayNumber(CivilDate(1970, 0, 1)) == 0 && Weekday(0) == 4
    ensures Weekday(DayNumber(CivilDate(2024, 0, 1))) == Monday
  {
  }

  /** The month `m` months after January of year `y`: whole years are carried out of `m`. */
  function Carry(y: int, m: int): (c: CivilDate)
    ensures IsCursor(c)
    ensures 12 * c.year + c.month == 12 * y + m
  {
    CivilDate(y + m / 12, m % 12, 1)
  }

  predicate IsCursor(c: CivilDate) { ValidMonth(c.month) && c.day == 1 }

  /** The months counted from January of year 0. */
  function MonthIndex(c: CivilDate): int { 12 * c.year + c.month }

  /** Two firsts of a month with the same month index are the same date. */
  lemma SameIndexSameCursor(a: CivilDate, b: CivilDate)
    requires IsCursor(a) && IsCursor(b) && MonthIndex(a) == MonthIndex(b)
    ensures a == b
  {
  }

  /** The first of the next calendar month. */
  function FollowingMonth(c: CivilDate): (r: CivilDate)
    ensures IsCursor(r) && MonthIndex(r) == MonthIndex(c) + 1
  {
    Carry(c.year, c.month + 1)
  }

  /** The first of the previous calendar month. */
  function PrecedingMonth(c: CivilDate): (r: CivilDate)
    ensures IsCursor(r) && MonthIndex(r) == MonthIndex(c) - 1
  {
    Carry(c.year, c.month - 1)
  }

  /** Going back a month and then forward, or forward and then back, returns to the same month. */
  lemma CalendarMonthsInverse(c: CivilDate)
    requires IsCursor(c)
    ensures FollowingMonth(PrecedingMonth(c)) == c
    ensures PrecedingMonth(FollowingMonth(c)) == c
  {
    SameIndexSameCursor(FollowingMonth(PrecedingMonth(c)), c);
    SameIndexSameCursor(PrecedingMonth(FollowingMonth(c)), c);
  }

  /** A year argument that `new Date` reads as a year of the 1900s. */
  predicate TwoDigitYear(y: int) { 0 <= y <= 99 }

  /** The year `new Date(y, …)` uses: 0 to 99 stand for 1900 to 1999. */
  function FullYear(y: int): (r: int)
    ensures TwoDigitYear(y) ==> r == 1900 + y
    ensures !TwoDigitYear(y) ==> r == y
  {
    if TwoDigitYear(y) then 1900 + y else y
  }

  /** `new Date(y, m, 1)` for any month index `m`. */
  function MonthStart(y: int, m: int): (c: CivilDate)
    ensures IsCursor(c)
    ensures MonthIndex(c) == 12 * FullYear(y) + m
  {
    Carry(FullYear(y), m)
  }

  /** The "previous month" button: `new Date(y, m - 1, 1)`. */
  function PrevMonth(c: CivilDate): (r: CivilDate)
    ensures IsCursor(r) && MonthIndex(r) == 12 * FullYear(c.year) + c.month - 1
  {
    MonthStart(c.year, c.month - 1)
  }

  /** The "next month" button: `new Date(y, m + 1, 1)`. */
  function NextMonth(c: CivilDate): (r: CivilDate)
    ensures IsCursor(r) && MonthIndex(r) == 12 * FullYear(c.year) + c.month + 1
  {
    MonthStart(c.year, c.month + 1)
  }

  /** The buttons step one calendar month exactly when the cursor's year is not one of 0 to 99. */
  lemma ButtonsStepOneMonth(c: CivilDate)
    requires IsCursor(c)
    ensures PrevMonth(c) == PrecedingMonth(c) <==> !TwoDigitYear(c.year)
    ensures NextMonth(c) == FollowingMonth(c) <==> !TwoDigitYear(c.year)
  {
    if !TwoDigitYear(c.year) {
      SameIndexSameCursor(PrevMonth(c), PrecedingMonth(c));
      SameIndexSameCursor(NextMonth(c), FollowingMonth(c));
    }
  }

  /** The cursors from which "previous" and then "next" come back: all but the years 0 to 99 and January of year 100. */
  predicate BackForthReturns(c: CivilDate)
  {
    !TwoDigitYear(c.year) && !(c.year == 100 && c.month == 0)
  }

  /** The cursors from which "next" and then "previous" come back: all but the years 0 to 99 and December of year -1. */
  predicate ForthBackReturns(c: CivilDate)
  {
    !TwoDigitYear(c.year) && !(c.year == -1 && c.month == 11)
  }

  /** "Previous" and then "next" returns to the same month exactly on the cursors of `BackForthReturns`. */
  lemma BackThenForth(c: CivilDate)
    requires IsCursor(c)
    ensures NextMonth(PrevMonth(c)) == c <==> BackForthReturns(c)
  {
    var p := PrevMonth(c);
    if BackForthReturns(c) {
      if c.month == 0 {
        SameIndexSameCursor(p, CivilDate(c.year - 1, 11, 1));
      } else {
        SameIndexSameCursor(p, CivilDate(c.year, c.month - 1, 1));
      }
      SameIndexSameCursor(NextMonth(p), c);
    } else if TwoDigitYear(c.year) {
      TwoDigitStepsAway(c);
    } else {
      SameIndexSameCursor(p, CivilDate(99, 11, 1));
    }
  }

  /** "Next" and then "previous" returns to the same month exactly on the cursors of `ForthBackReturns`. */
  lemma ForthThenBack(c: CivilDate)
    requires IsCursor(c)
    ensures PrevMonth(NextMonth(c)) == c <==> ForthBackReturns(c)
  {
    var n := NextMonth(c);
    if ForthBackReturns(c) {
      if c.month == 11 {
        SameIndexSameCursor(n, CivilDate(c.year + 1, 0, 1));
      } else {
        SameIndexSameCursor(n, CivilDate(c.year, c.month + 1, 1));
      }
      SameIndexSameCursor(PrevMonth(n), c);
    } else if TwoDigitYear(c.year) {
      TwoDigitStepsAway(c);
    } else {
      YearZeroFromDecember(c);
    }
  }

  /** From a two-digit year both buttons land in the 1900s, and a second click does not come back. */
  lemma TwoDigitStepsAway(c: CivilDate)
    requires IsCursor(c) && TwoDigitYear(c.year)
    ensures NextMonth(PrevMonth(c)) != c && PrevMonth(NextMonth(c)) != c
  {
    var p, n := PrevMonth(c), NextMonth(c);
    assert p.year >= 100 && n.year >= 100;
    assert MonthIndex(NextMonth(p)) == MonthIndex(c) + 12 * 1900;
    assert MonthIndex(PrevMonth(n)) == MonthIndex(c) + 12 * 1900;
  }

  /** Forward from December of year -1 is January of year 0, which "previous" reads as 1900. */
  lemma YearZeroFromDecember(c: CivilDate)
    requires IsCursor(c) && c.year == -1 && c.month == 11
    ensures PrevMonth(NextMonth(c)) != c
  {
    var n := NextMonth(c);
    assert MonthIndex(n) == 0;
    PrevFromYearZero(n);
  }

  /** "Previous" from January of year 0 is December 1899. */
  lemma PrevFromYearZero(n: CivilDate)
    requires IsCursor(n) && MonthIndex(n) == 0
    ensures MonthIndex(PrevMonth(n)) == 12 * 1900 - 1
  {
    assert n.year == 0;
  }

  /** Back and then forward, or forward and then back, returns to the same month exactly on those cursors. */
  lemma PrevNextInverse(c: CivilDate)
    requires IsCursor(c)
    ensures NextMonth(PrevMonth(c)) == c <==> BackForthReturns(c)
    ensures PrevMonth(NextMonth(c)) == c <==> ForthBackReturns(c)
  {
    BackThenForth(c);
    ForthThenBack(c);
  }


  /**
   * Near year 100 the two-digit rule breaks the round trip: back from
   * January of year 100 is December of year 99, and forward from there is
   * January 2000.
   */
  lemma TwoDigitYearJump()
    ensures PrevMonth(CivilDate(100, 0, 1)) == CivilDate(99, 11, 1)
    ensures NextMonth(CivilDate(99, 11, 1)) == CivilDate(2000, 0, 1)
  {
    SameIndexSameCursor(PrevMonth(CivilDate(100, 0, 1)), CivilDate(99, 11, 1));
    SameIndexSameCursor(NextMonth(CivilDate(99, 11, 1)), CivilDate(2000, 0, 1));
  }

  /**
   * The month the grid of a cursor shows: `new Date(getFullYear(),
   * getMonth(), 1)`. It has the cursor's month; its year differs from the
   * cursor's only for a cursor in the years 0 to 99.
   */
  function Shown(c: CivilDate): (r: CivilDate)
    requires IsCursor(c)
    ensures IsCursor(r) && r.month == c.month && r.year == FullYear(c.year)
    ensures !(0 <= c.year <= 99) ==> r == c
  {
    MonthStart(c.year, c.month)
  }

  /** The day number of the first of the cursor's month. */
  function FirstOfMonth(c: CivilDate): (n: int)
    requires ValidMonth(c.month)
    ensures n == DayNumber(c) - (c.day - 1)
  {
    DayNumber(CivilDate(c.year, c.month, 1))
  }

  /** The days of a month are numbered consecutively from its first. */
  lemma DaysOfMonth(c: CivilDate, d: int)
    requires ValidMonth(c.month)
    ensures DayNumber(CivilDate(c.year, c.month, d)) == FirstOfMonth(c) + d - 1
  {
  }

  /** A month is followed immediately by the next: the months tile the day line. */
  lemma NextMonthFollows(c: CivilDate)
    requires ValidMonth(c.month)
    ensures FirstOfMonth(FollowingMonth(c)) == FirstOfMonth(c) + DaysInMonth(c.year, c.month)
  {
    if c.month == 11 {
      assert FollowingMonth(c) == CivilDate(c.year + 1, 0, 1);
      YearsFollow(c.year);
      MonthsMakeYear(c.year);
    } else {
      assert FollowingMonth(c) == CivilDate(c.year, c.month + 1, 1);
    }
  }

  /** A month with a later index starts no earlier than the end of an earlier one. */
  lemma {:induction false} LaterMonthStartsLater(a: CivilDate, b: CivilDate)
    requires IsCursor(a) && IsCursor(b) && MonthIndex(a) < MonthIndex(b)
    ensures FirstOfMonth(FollowingMonth(a)) <= FirstOfMonth(b)
    decreases MonthIndex(b) - MonthIndex(a)
  {
    var p := PrecedingMonth(b);
    CalendarMonthsInverse(b);
    if MonthIndex(p) == MonthIndex(a) {
      SameIndexSameCursor(p, a);
    } else {
      LaterMonthStartsLater(a, p);
      NextMonthFollows(p);
    }
  }

  /** A day lies in the month of `c`. */
  predicate InMonth(n: int, c: CivilDate)
    requires IsCursor(c)
  {
    FirstOfMonth(c) <= n < FirstOfMonth(FollowingMonth(c))
  }

  /** A day lies in one month only. */
  lemma MonthsDisjoint(a: CivilDate, b: CivilDate, n: int)
    requires IsCursor(a) && IsCursor(b) && InMonth(n, a) && InMonth(n, b)
    ensures a == b
  {
    if MonthIndex(a) < MonthIndex(b) {
      LaterMonthStartsLater(a, b);
    } else if MonthIndex(b) < MonthIndex(a) {
      LaterMonthStartsLater(b, a);
    } else {
      SameIndexSameCursor(a, b);
    }
  }

  /** The month of day `n`, walking forward month by month from `c`. */
  function Forward(c: CivilDate, n: int): (r: CivilDate)
    requires IsCursor(c) && FirstOfMonth(c) <= n
    ensures IsCursor(r) && InMonth(n, r)
    decreases n - FirstOfMonth(c)
  {
    NextMonthFollows(c);
    if n < FirstOfMonth(FollowingMonth(c)) then c else Forward(FollowingMonth(c), n)
  }

  /** The month of day `n`, walking back month by month from `c`. */
  function Backward(c: CivilDate, n: int): (r: CivilDate)
    requires IsCursor(c) && n < FirstOfMonth(FollowingMonth(c))
    ensures IsCursor(r) && InMonth(n, r)
    decreases FirstOfMonth(FollowingMonth(c)) - n
  {
    NextMonthFollows(c);
    if FirstOfMonth(c) <= n then c
    else
      CalendarMonthsInverse(c);
      Backward(PrecedingMonth(c), n)
  }

  /** `getFullYear()` and `getMonth()` of day `n`: the first of the month it lies in. */
  ghost function MonthOf(n: int): (c: CivilDate)
    ensures IsCursor(c) && InMonth(n, c)
  {
    SomeMonthHolds(CivilDate(1970, 0, 1), n);
    var c :| IsCursor(c) && InMonth(n, c); c
  }

  /** Every day lies in some month: walk there from the month `start`. */
  lemma SomeMonthHolds(start: CivilDate, n: int)
    requires IsCursor(start)
    ensures exists c :: IsCursor(c) && InMonth(n, c)
  {
    NextMonthFollows(start);
    var found := if FirstOfMonth(start) <= n then Forward(start, n) else Backward(start, n);
    assert IsCursor(found) && InMonth(n, found);
  }

  /** The month of a day is the one month that contains it. */
  lemma MonthOfUnique(n: int, c: CivilDate)
    requires IsCursor(c)
    ensures MonthOf(n) == c <==> InMonth(n, c)
  {
    if InMonth(n, c) {
      MonthsDisjoint(MonthOf(n), c, n);
    }
  }

  /** `String(m + 1).padStart(2, '0')`: the month number as two digits. */
  function MonthDigits(m: int): (mm: string)
    requires ValidMonth(m)
    ensures |mm| == 2 && AllDigits(mm) && ParseDecimal(mm) == m + 1
  {
    PaddedTwoDigits(m + 1);
    PadStart2(IntToString(m + 1))
  }

  /** `monthKey(d)`: the year, a dash, and the month number from 01 to 12. */
  function MonthKey(c: CivilDate): (key: string)
    requires ValidMonth(c.month)
  {
    IntToString(c.year) + "-" + MonthDigits(c.month)
  }

  /** Reads a month key back: the year before the final "-MM", and the month index. */
  function ParseMonthKey(key: string): (r: (int, int))
    requires |key| >= 4 && IsIntText(key[..|key| - 3]) && AllDigits(key[|key| - 2..])
  {
    (ParseInt(key[..|key| - 3]), ParseDecimal(key[|key| - 2..]) - 1)
  }

  /** `monthKey` loses nothing: the key gives back the year and the month. */
  lemma MonthKeyRoundTrip(c: CivilDate)
    requires ValidMonth(c.month)
    ensures var key := MonthKey(c);
      |key| >= 4 && IsIntText(key[..|key| - 3]) && AllDigits(key[|key| - 2..])
      && ParseMonthKey(key) == (c.year, c.month)
  {
    var y, mm := IntToString(c.year), MonthDigits(c.month);
    IntRoundTrip(c.year);
    assert MonthKey(c) == y + ['-'] + mm;
    ParseKeyParts(y, mm);
  }

  /** A year text, a dash and two digits read back as the year and the digits' value minus one. */
  lemma ParseKeyParts(y: string, mm: string)
    requires IsIntText(y) && |mm| == 2 && AllDigits(mm)
    ensures var key := y + ['-'] + mm;
      |key| >= 4 && IsIntText(key[..|key| - 3]) && AllDigits(key[|key| - 2..])
      && ParseMonthKey(key) == (ParseInt(y), ParseDecimal(mm) - 1)
  {
    SplitAtLast(y, '-', mm);
  }

  /** Two cursors with the same key show the same month. */
  lemma MonthKeyInjective(a: CivilDate, b: CivilDate)
    requires ValidMonth(a.month) && ValidMonth(b.month)
    requires MonthKey(a) == MonthKey(b)
    ensures a.year == b.year && a.month == b.month
  {
    MonthKeyRoundTrip(a);
    MonthKeyRoundTrip(b);
  }

  /** How many days the grid reaches back from the first: 0 for a Monday up to 6 for a Sunday. */
  function MondayOffset(n: int): (k: int)
    ensures 0 <= k <= 6
  {
    (Weekday(n) + 6) % 7
  }

  const GridCells: nat := 42

  /** The first cell of the cursor's grid: the Monday on or before the first of the month. */
  function GridStart(c: CivilDate): (s: int)
    requires ValidMonth(c.month)
    ensures Weekday(s) == Monday
    ensures FirstOfMonth(c) - 6 <= s <= FirstOfMonth(c)
  {
    var first := FirstOfMonth(c);
    BackToMonday(first);
    first - MondayOffset(first)
  }

  /** Going back `MondayOffset(n)` days from day `n` lands on a Monday. */
  lemma BackToMonday(n: int)
    ensures Weekday(n - MondayOffset(n)) == Monday
  {
    var w := Weekday(n);
    var q := (n + 4) / 7;
    assert n + 4 == 7 * q + w;
    if w == 0 {
      assert MondayOffset(n) == 6;
      assert n - 6 + 4 == 7 * (q - 1) + 1;
    } else {
      assert MondayOffset(n) == w - 1;
      assert n - (w - 1) + 4 == 7 * q + 1;
    }
  }

  /**
   * `month`: the 42 consecutive days from the Monday on or before the first
   * of the month the cursor shows. Every day of that month is a cell, at the
   * index the first's offset plus the day minus one.
   */
  method MonthGrid(cursor: CivilDate) returns (days: seq<int>)
    requires IsCursor(cursor)
    ensures |days| == GridCells
    ensures forall i :: 0 <= i < |days| ==> days[i] == GridStart(Shown(cursor)) + i
    ensures forall i :: 0 < i < |days| ==> days[i] == days[i - 1] + 1
    ensures Weekday(days[0]) == Monday
    ensures FirstOfMonth(Shown(cursor)) - 6 <= days[0] <= FirstOfMonth(Shown(cursor))
    ensures var shown := Shown(cursor);
      forall d :: 1 <= d <= DaysInMonth(shown.year, shown.month) ==>
        var k := MondayOffset(FirstOfMonth(shown)) + d - 1;
        0 <= k < |days| && days[k] == DayNumber(CivilDate(shown.year, shown.month, d))
  {
    var shown := MonthStart(cursor.year, cursor.month);
    assert shown == Shown(cursor);
    var first := FirstOfMonth(shown);
    var start := first - MondayOffset(first);
    assert start == GridStart(shown);
    days := [];
    for i := 0 to GridCells
      invariant |days| == i
      invariant forall k :: 0 <= k < i ==> days[k] == start + k
    {
      days := days + [start + i];
    }
    forall d | 1 <= d <= DaysInMonth(shown.year, shown.month)
      ensures days[MondayOffset(first) + d - 1] == DayNumber(CivilDate(shown.year, shown.month, d))
    {
      DaysOfMonth(shown, d);
    }
  }

  /** The grid reaches back no further than the previous month and forward no further than the next one. */
  lemma GridWithinNeighbourMonths(c: CivilDate)
    requires IsCursor(c)
    ensures FirstOfMonth(PrecedingMonth(c)) <= GridStart(c)
    ensures GridStart(c) + GridCells - 1 < FirstOfMonth(FollowingMonth(FollowingMonth(c)))
    ensures PrecedingMonth(c).month != c.month && FollowingMonth(c).month != c.month
  {
    var p := PrecedingMonth(c);
    CalendarMonthsInverse(c);
    NextMonthFollows(p);
    NextMonthFollows(c);
    NextMonthFollows(FollowingMonth(c));
  }

  /**
   * Comparing only `getMonth()` of a cell with the month shown, as the page
   * does to dim the cells of other months, picks out exactly the days of
   * that month.
   */
  lemma GridMarksOwnMonth(c: CivilDate, i: int)
    requires IsCursor(c) && 0 <= i < GridCells
    ensures MonthOf(GridStart(Shown(c)) + i).month == c.month <==> InMonth(GridStart(Shown(c)) + i, Shown(c))
  {
    GridCellMonth(Shown(c), i);
  }

  /** A cell of the grid of month `s` is in `s`'s month exactly when its month number is `s`'s. */
  lemma GridCellMonth(s: CivilDate, i: int)
    requires IsCursor(s) && 0 <= i < GridCells
    ensures MonthOf(GridStart(s) + i).month == s.month <==> InMonth(GridStart(s) + i, s)
  {
    GridWithinNeighbourMonths(s);
    NeighbourDayMonth(s, GridStart(s) + i);
  }

  /**
   * For a day between the first of the previous month and the end of the
   * next one, the month number alone tells whether it lies in `s`'s month.
   */
  lemma NeighbourDayMonth(s: CivilDate, n: int)
    requires IsCursor(s)
    requires FirstOfMonth(PrecedingMonth(s)) <= n < FirstOfMonth(FollowingMonth(FollowingMonth(s)))
    requires PrecedingMonth(s).month != s.month && FollowingMonth(s).month != s.month
    ensures MonthOf(n).month == s.month <==> InMonth(n, s)
  {
    var p, f := PrecedingMonth(s), FollowingMonth(s);
    if n < FirstOfMonth(s) {
      assert InMonth(n, p) by {
        CalendarMonthsInverse(s);
      }
      MonthOfUnique(n, p);
    } else if n < FirstOfMonth(f) {
      MonthOfUnique(n, s);
    } else {
      MonthOfUnique(n, f);
    }
  }
}

=== FILE: calendar_events.dfy ===
/**
 * Calendar events as the calendar page holds them
 * (`src/app/calendar/page.tsx`), the colour an event is drawn in, and
 * `eventsByDay`, the events grouped under their `date` text.
 */
module CalendarEvents {
  import opened Wrappers

  /** `CalEvent`; the optional properties are `None` when absent. `type` is called `kind` here. */
  datatype CalEvent = CalEvent(
    id: Option<string>,
    title: string,
    description: Option<string>,
    date: string,
    startTime: Option<string>,
    endTime: Option<string>,
    kind: Option<string>,
    location: Option<string>,
    color: Option<string>,
    createdAt: Option<string>,
    updatedAt: Option<string>)

  /** An entry of `TYPES`: an event type and its colour. */
  datatype EventType = EventType(key: string, color: string)

  const Types: seq<EventType> := [
    EventType("Café com T", "#9b87f5"),
    EventType("Aniversariantes", "#22d3ee"),
    EventType("Happy Hour", "#34d399"),
    EventType("Workshop/Capacitação", "#fbbf24"),
    EventType("Ação Especial", "#fb7185")
  ]

  const DefaultColor: string := "#60a5fa"

  lemma TypeKeysDistinct()
    ensures forall i, j :: 0 <= i < j < |Types| ==> Types[i].key != Types[j].key
  {
  }

  /** `TYPES.find(t => t.key === type)`, giving the colour of the first entry whose key is `kind`. */
  function FindTypeColor(types: seq<EventType>, kind: Option<string>): (r: Option<string>)
    ensures r.None? <==> kind.None? || forall i :: 0 <= i < |types| ==> types[i].key != kind.value
    ensures r.Some? ==> exists i :: (0 <= i < |types| && types[i] == EventType(kind.value, r.value)
      && forall j :: 0 <= j < i ==> types[j].key != kind.value)
  {
    if kind.None? || types == [] then None
    else if types[0].key == kind.value then Some(types[0].color)
    else
      var r := FindTypeColor(types[1..], kind);
      assert forall i :: 0 < i < |types| ==> types[i] == types[1..][i - 1];
      r
  }

  /**
   * `colorFor(type, color)`: a non-empty explicit colour wins; otherwise the
   * colour of the type entry whose key is `type`; otherwise the default. The
   * empty colour that a new event starts with falls through to the type.
   */
  function ColorFor(kind: Option<string>, colorHex: Option<string>): (c: string)
    ensures colorHex.Some? && colorHex.value != "" ==> c == colorHex.value
    ensures (colorHex.None? || colorHex.value == "") ==>
      (forall i :: 0 <= i < |Types| && kind == Some(Types[i].key) ==> c == Types[i].color)
    ensures (colorHex.None? || colorHex.value == "") && (kind.None? || forall i :: 0 <= i < |Types| ==> Types[i].key != kind.value) ==>
      c == DefaultColor
  {
    if colorHex.Some? && colorHex.value != "" then colorHex.value
    else
      TypeKeysDistinct();
      FindTypeColor(Types, kind).GetOr(DefaultColor)
  }

  /** Events grouped by their `date` text; `Record<string, CalEvent[]>`. */
  type Buckets = map<string, seq<CalEvent>>

  /** One step of `eventsByDay`: append `ev` to the bucket of its date, opening it if needed. */
  function AddToBucket(m: Buckets, ev: CalEvent): Buckets
  {
    m[ev.date := (if ev.date in m then m[ev.date] else []) + [ev]]
  }

  /** What `eventsByDay` holds after the events of `evs`, taken in order. */
  function Grouped(evs: seq<CalEvent>): Buckets
  {
    if evs == [] then map[] else AddToBucket(Grouped(evs[..|evs| - 1]), evs[|evs| - 1])
  }

  /** The events of `evs` whose date is `key`, in their order in `evs`. */
  function OnDate(evs: seq<CalEvent>, key: string): (r: seq<CalEvent>)
    ensures |r| <= |evs|
    ensures forall e :: e in r ==> e in evs && e.date == key
    ensures forall i :: 0 <= i < |evs| && evs[i].date == key ==> evs[i] in r
  {
    if evs == [] then []
    else
      var init := evs[..|evs| - 1];
      assert forall i :: 0 <= i < |evs| - 1 ==> evs[i] == init[i];
      OnDate(init, key) + (if evs[|evs| - 1].date == key then [evs[|evs| - 1]] else [])
  }

  /** No event has the date: nothing is on it. */
  lemma {:induction false} OnDateAbsent(evs: seq<CalEvent>, key: string)
    requires forall i :: 0 <= i < |evs| ==> evs[i].date != key
    ensures OnDate(evs, key) == []
  {
    if evs != [] {
      OnDateAbsent(evs[..|evs| - 1], key);
    }
  }

  /** Some date of a non-empty grouping; the same one each time for the same grouping. */
  ghost function Pick(m: Buckets): (k: string)
    requires |m| != 0
    ensures k in m
  {
    var k :| k in m; k
  }

  /** The number of events over all buckets. */
  ghost function TotalSize(m: Buckets): nat
    decreases |m|
  {
    if |m| == 0 then 0 else var k := Pick(m); |m[k]| + TotalSize(m - {k})
  }

  lemma {:induction false} TotalSizeRemove(m: Buckets, k: string)
    requires k in m
    ensures TotalSize(m) == |m[k]| + TotalSize(m - {k})
    decreases |m|, 1
  {
    var j := Pick(m);
    if j != k {
      SwapRemovals(m, j, k);
    }
  }

  /** Removing `j` then `k` sums like removing `k` then `j`. */
  lemma {:induction false} SwapRemovals(m: Buckets, j: string, k: string)
    requires j in m && k in m && j != k
    ensures |m[j]| + TotalSize(m - {j}) == |m[k]| + TotalSize(m - {k})
    decreases |m|, 0
  {
    var mj, mk := m - {j}, m - {k};
    assert mj.Keys == m.Keys - {j} && mk.Keys == m.Keys - {k};
    TotalSizeRemove(mj, k);
    TotalSizeRemove(mk, j);
    assert mj - {k} == mk - {j};
  }

  /** A bucket exists exactly for each date that occurs. */
  lemma {:induction false} GroupedKeys(evs: seq<CalEvent>)
    ensures forall k :: k in Grouped(evs) <==> exists i :: 0 <= i < |evs| && evs[i].date == k
  {
    if evs != [] {
      var init := evs[..|evs| - 1];
      GroupedKeys(init);
      assert forall i :: 0 <= i < |init| ==> init[i] == evs[i];
    }
  }

  /**
   * Each bucket holds exactly the events of its date, in their original
   * order, and is never empty.
   */
  lemma {:induction false} GroupedContents(evs: seq<CalEvent>)
    ensures forall k :: k in Grouped(evs) ==> Grouped(evs)[k] == OnDate(evs, k) && Grouped(evs)[k] != []
  {
    if evs != [] {
      var init, ev := evs[..|evs| - 1], evs[|evs| - 1];
      GroupedContents(init);
      GroupedKeys(init);
      var g := Grouped(init);
      if ev.date !in g {
        OnDateAbsent(init, ev.date);
      }
      forall k | k in Grouped(evs)
        ensures Grouped(evs)[k] == OnDate(evs, k)
      {
      }
    }
  }

  /** The buckets together hold as many events as the list. */
  lemma {:induction false} GroupedTotal(evs: seq<CalEvent>)
    ensures TotalSize(Grouped(evs)) == |evs|
  {
    if evs != [] {
      var init, ev := evs[..|evs| - 1], evs[|evs| - 1];
      GroupedTotal(init);
      var g := Grouped(init);
      var g' := AddToBucket(g, ev);
      assert g' - {ev.date} == g - {ev.date};
      TotalSizeRemove(g', ev.date);
      if ev.date in g {
        TotalSizeRemove(g, ev.date);
      } else {
        assert g - {ev.date} == g;
      }
    }
  }

  /**
   * The buckets of `eventsByDay` together: one per date that occurs, every
   * event in the bucket of its own date, each bucket exactly the events of
   * its date in order and never empty, as many events in all as in the list.
   */
  lemma GroupedBuckets(evs: seq<CalEvent>)
    ensures forall k :: k in Grouped(evs) <==> exists i :: 0 <= i < |evs| && evs[i].date == k
    ensures forall i :: 0 <= i < |evs| ==> evs[i].date in Grouped(evs) && evs[i] in Grouped(evs)[evs[i].date]
    ensures forall k :: k in Grouped(evs) ==> Grouped(evs)[k] == OnDate(evs, k) && Grouped(evs)[k] != []
    ensures TotalSize(Grouped(evs)) == |evs|
  {
    GroupedKeys(evs);
    GroupedContents(evs);
    GroupedTotal(evs);
    GroupedMembership(evs);
  }

  /** Every event is in the bucket of its own date. */
  lemma GroupedMembership(evs: seq<CalEvent>)
    ensures forall i :: 0 <= i < |evs| ==> evs[i].date in Grouped(evs) && evs[i] in Grouped(evs)[evs[i].date]
  {
    GroupedKeys(evs);
    GroupedContents(evs);
  }

  /** `eventsByDay`, the loop that fills the buckets. */
  method EventsByDay(events: seq<CalEvent>) returns (m: Buckets)
    ensures m == Grouped(events)
    ensures forall k :: k in m <==> exists i :: 0 <= i < |events| && events[i].date == k
    ensures forall i :: 0 <= i < |events| ==> events[i].date in m && events[i] in m[events[i].date]
    ensures forall k :: k in m ==> m[k] == OnDate(events, k) && m[k] != []
    ensures TotalSize(m) == |events|
  {
    m := map[];
    for i := 0 to |events|
      invariant m == Grouped(events[..i])
    {
      ghost var before := m;
      var ev := events[i];
      var key := ev.date;
      if key !in m {
        m := m[key := []];
      }
      m := m[key := m[key] + [ev]];
      assert m == Grouped(events[..i + 1]) by {
        assert m == AddToBucket(before, ev);
        assert events[..i + 1][..i] == events[..i];
      }
    }
    assert events[..|events|] == events;
    GroupedBuckets(events);
  }
}

=== FILE: calendar_page.dfy ===
/**
 * The state of the calendar page (`src/app/calendar/page.tsx`): the loaded
 * events, the month on screen and the event editor, and the handlers that
 * move between them. Each asynchronous handler is modelled as one step that
 * is given what its `await`s resolved to; the requests it sends are returned.
 */
module CalendarPage {
  import opened Wrappers
  import opened Text
  import opened Http
  import opened CalendarDates
  import opened CalendarEvents
  import CalendarRoute

  /** What `apiList()` resolved to: an exception, or the reply's `ok` and its `data` (absent or falsy as `None`). */
  datatype ListReply = ListThrew | Listed(ok: bool, data: Option<seq<CalEvent>>)

  /** What `apiPost(...)` resolved to: an exception, or the reply's `ok`. */
  datatype PostReply = PostThrew | Posted(ok: bool)

  /** The body handed to `apiPost`: an event, or the empty object of a delete. */
  datatype PostBody = EventBody(ev: CalEvent) | NoFields

  /** A call `apiPost(route, body, id)`. */
  datatype ApiPost = ApiPost(route: string, body: PostBody, id: Option<string>)

  /** A string that JavaScript treats as true: present and non-empty. */
  predicate Truthy(s: Option<string>) { s.Some? && s.value != "" }

  /** The query of the URL `apiPost` requests: the route, then the id only when it is truthy. */
  function ApiPostQuery(p: ApiPost): (q: Query)
    ensures Get(q, "route") == Some(p.route)
    ensures Get(q, "id") == if Truthy(p.id) then p.id else None
  {
    [("route", p.route)] + (if Truthy(p.id) then [("id", p.id.value)] else [])
  }

  /** A route name the page sends: lower-case letters and `_` only. */
  predicate PageRoute(route: string)
  {
    route == "calendar_create" || route == "calendar_update" || route == "calendar_delete"
  }

  lemma LowerCaseUnchanged(s: string)
    requires forall i :: 0 <= i < |s| ==> !('A' <= s[i] <= 'Z')
    ensures AsciiLower(s) == s
  {
  }

  /**
   * A request of the page reaches the calendar route's POST handler as it
   * was meant: the handler reads back the same route and forwards the id
   * exactly when the page sent one.
   */
  lemma ApiPostReachesHandler(p: ApiPost)
    requires PageRoute(p.route)
    ensures CalendarRoute.PostRoute(ApiPostQuery(p)) == p.route
    ensures Get(CalendarRoute.PostParams(ApiPostQuery(p)), "route") == Some(p.route)
    ensures Get(CalendarRoute.PostParams(ApiPostQuery(p)), "id") == if Truthy(p.id) then p.id else None
  {
    LowerCaseUnchanged(p.route);
  }

  /** The event `openCreate(date)` starts the editor with: every text field empty, no id. */
  function NewEvent(date: string): (ev: CalEvent)
    ensures ev.id.None? && ev.createdAt.None? && ev.updatedAt.None?
    ensures ev.date == date && ev.title == ""
    ensures ev.color == Some("") && ev.kind == Some("")
  {
    CalEvent(None, "", Some(""), date, Some(""), Some(""), Some(""), Some(""), Some(""), None, None)
  }

  /**
   * A new event is drawn in the default colour until a type is chosen, and
   * then in that type's colour: its empty colour never wins.
   */
  lemma NewEventColor(date: string, i: int)
    requires 0 <= i < |Types|
    ensures ColorFor(NewEvent(date).kind, NewEvent(date).color) == DefaultColor
    ensures ColorFor(Some(Types[i].key), NewEvent(date).color) == Types[i].color
  {
    assert Types[0].key != "";
  }

  /**
   * The request `saveEvent` sends for the event in the editor: an update
   * carrying the id separately and the rest of the event without it when the
   * id is truthy, otherwise a create carrying the event as it is.
   */
  function SaveRequest(ev: CalEvent): (p: ApiPost)
    ensures p.route == "calendar_update" <==> Truthy(ev.id)
    ensures p.route == "calendar_create" <==> !Truthy(ev.id)
    ensures Truthy(ev.id) ==> p.id == ev.id && p.body == EventBody(ev.(id := None))
    ensures !Truthy(ev.id) ==> p.id.None? && p.body == EventBody(ev)
  {
    if Truthy(ev.id) then ApiPost("calendar_update", EventBody(ev.(id := None)), ev.id)
    else ApiPost("calendar_create", EventBody(ev), None)
  }

  /** An update names the stored event by its id; a create never names one. */
  lemma SaveRequestForwarded(ev: CalEvent)
    ensures Get(CalendarRoute.PostParams(ApiPostQuery(SaveRequest(ev))), "id") == if Truthy(ev.id) then ev.id else None
    ensures Get(CalendarRoute.PostParams(ApiPostQuery(SaveRequest(ev))), "route") == Some(SaveRequest(ev).route)
  {
    ApiPostReachesHandler(SaveRequest(ev));
  }

  /** The events after `refresh`: `data`, or none when it is missing, on an ok reply; otherwise the old ones. */
  function Refreshed(current: seq<CalEvent>, reply: ListReply): (evs: seq<CalEvent>)
    ensures reply.Listed? && reply.ok && reply.data.Some? ==> evs == reply.data.value
    ensures reply.Listed? && reply.ok && reply.data.None? ==> evs == []
    ensures !(reply.Listed? && reply.ok) ==> evs == current
  {
    if reply.Listed? && reply.ok then reply.data.GetOr([]) else current
  }

  class CalendarPage {
    var events: seq<CalEvent>
    var loading: bool
    var cursor: CivilDate
    var open: bool
    var editing: Option<CalEvent>

    /** The cursor is always the first day of a month. */
    ghost predicate Valid()
      reads this
    {
      IsCursor(cursor)
    }

    /** The page as it mounts: no events yet, loading, the current month, the editor closed. */
    constructor (todayYear: int, todayMonth: int)
      ensures Valid()
      ensures events == [] && loading && !open && editing.None?
      ensures MonthIndex(cursor) == 12 * FullYear(todayYear) + todayMonth
    {
      events := [];
      loading := true;
      cursor := MonthStart(todayYear, todayMonth);
      open := false;
      editing := None;
    }

    /** `refresh()`, once `apiList()` has resolved: only `events` and `loading` change. */
    method Refresh(reply: ListReply)
      modifies this
      ensures events == Refreshed(old(events), reply)
      ensures !loading
      ensures cursor == old(cursor) && open == old(open) && editing == old(editing)
    {
      loading := true;
      match reply {
        case ListThrew =>
        case Listed(ok, data) =>
          if ok {
            events := data.GetOr([]);
          }
      }
      loading := false;
    }

    /** `openCreate(dateStr)`: a new event on `dateStr`, or on `today` when that is missing or empty. */
    method OpenCreate(dateStr: Option<string>, today: string)
      modifies this
      ensures editing == Some(NewEvent(if Truthy(dateStr) then dateStr.value else today))
      ensures open
      ensures events == old(events) && loading == old(loading) && cursor == old(cursor)
    {
      var date := if Truthy(dateStr) then dateStr.value else today;
      editing := Some(NewEvent(date));
      open := true;
    }

    /** `openEdit(ev)`: a copy of the event in the editor. */
    method OpenEdit(ev: CalEvent)
      modifies this
      ensures editing == Some(ev) && open
      ensures events == old(events) && loading == old(loading) && cursor == old(cursor)
    {
      editing := Some(ev);
      open := true;
    }

    /** Closing the modal (backdrop or "Cancelar") hides it; the event stays in the editor. */
    method Close()
      modifies this
      ensures !open
      ensures editing == old(editing) && events == old(events) && loading == old(loading) && cursor == old(cursor)
    {
      open := false;
    }

    /**
     * `saveEvent()`. With nothing in the editor it does nothing. Otherwise
     * it sends `SaveRequest` of the edited event; only an ok reply closes
     * and clears the editor and asks for a refresh, while a failed or
     * thrown request leaves everything as it was.
     */
    method SaveEvent(reply: PostReply) returns (sent: Option<ApiPost>, refresh: bool)
      modifies this
      ensures old(editing).None? ==> sent.None?
      ensures old(editing).Some? ==> sent == Some(SaveRequest(old(editing).value))
      ensures refresh <==> old(editing).Some? && reply == Posted(true)
      ensures refresh ==> !open && editing.None?
      ensures !refresh ==> open == old(open) && editing == old(editing)
      ensures events == old(events) && loading == old(loading) && cursor == old(cursor)
    {
      if editing.None? {
        return None, false;
      }
      sent := Some(SaveRequest(editing.value));
      refresh := reply == Posted(true);
      if refresh {
        open := false;
        editing := None;
      }
    }

    /**
     * `deleteEvent()`. Only an event with a truthy id can be deleted, and
     * only after the user confirms; the request carries the id and an empty
     * body. An ok reply closes and clears the editor and asks for a refresh.
     */
    method DeleteEvent(confirmed: bool, reply: PostReply) returns (sent: Option<ApiPost>, refresh: bool)
      modifies this
      ensures sent.Some? <==> old(editing).Some? && Truthy(old(editing).value.id) && confirmed
      ensures sent.Some? ==> sent.value == ApiPost("calendar_delete", NoFields, old(editing).value.id)
      ensures refresh <==> sent.Some? && reply == Posted(true)
      ensures refresh ==> !open && editing.None?
      ensures !refresh ==> open == old(open) && editing == old(editing)
      ensures events == old(events) && loading == old(loading) && cursor == old(cursor)
    {
      if editing.None? || !Truthy(editing.value.id) || !confirmed {
        return None, false;
      }
      sent := Some(ApiPost("calendar_delete", NoFields, editing.value.id));
      refresh := reply == Posted(true);
      if refresh {
        open := false;
        editing := None;
      }
    }

    /** "Mês anterior": the first of the previous month. */
    method GoPrevious()
      requires Valid()
      modifies this
      ensures Valid() && cursor == PrevMonth(old(cursor))
      ensures MonthIndex(cursor) == 12 * FullYear(old(cursor.year)) + old(cursor.month) - 1
      ensures cursor == PrecedingMonth(old(cursor)) <==> !TwoDigitYear(old(cursor.year))
      ensures events == old(events) && open == old(open) && editing == old(editing) && loading == old(loading)
    {
      ButtonsStepOneMonth(cursor);
      cursor := PrevMonth(cursor);
    }

    /** "Próximo mês": the first of the next month. */
    method GoNext()
      requires Valid()
      modifies this
      ensures Valid() && cursor == NextMonth(old(cursor))
      ensures MonthIndex(cursor) == 12 * FullYear(old(cursor.year)) + old(cursor.month) + 1
      ensures cursor == FollowingMonth(old(cursor)) <==> !TwoDigitYear(old(cursor.year))
      ensures events == old(events) && open == old(open) && editing == old(editing) && loading == old(loading)
    {
      ButtonsStepOneMonth(cursor);
      cursor := NextMonth(cursor);
    }
  }

  /**
   * Stepping back and then forward shows the same month again, across a
   * year boundary too, exactly when the two-digit years are out of reach.
   */
  method BackAndForth(page: CalendarPage)
    requires page.Valid()
    modifies page
    ensures page.Valid() && page.cursor == NextMonth(PrevMonth(old(page.cursor)))
    ensures page.cursor == old(page.cursor) <==> BackForthReturns(old(page.cursor))
  {
    BackThenForth(page.cursor);
    page.GoPrevious();
    page.GoNext();
  }
}

=== FILE: calendar_route.dfy ===
/**
 * The calendar proxy route (`src/app/api/calendar/route.ts`). GET lists
 * events, POST forwards a create, update or delete; both build the upstream
 * URL as a template string and both read the upstream answer through
 * `fetchJson`. The settings are read without any check, so an unset one is
 * interpolated as the text `undefined`.
 *
 * `encodeURIComponent`, `JSON.parse`, `JSON.stringify` and the network are
 * inputs.
 */
module CalendarRoute {
  import opened Wrappers
  import opened Json
  import opened Text
  import opened Http

  /** The `init` that `fetchJson` passes to `fetch`: the caller's, with `cache: 'no-store'` added. */
  datatype FetchInit = FetchInit(verb: string, headers: Headers, body: Option<string>, cache: string)

  datatype UpstreamCall = UpstreamCall(url: string, init: FetchInit)

  /** What a handler did: the one call it made upstream, and how it ended. */
  datatype Exchange = Exchange(call: UpstreamCall, out: Outcome)

  /** A value interpolated into a template string: `undefined` becomes the text "undefined". */
  function JsText(v: Option<string>): (s: string)
    ensures v.Some? ==> s == v.value
    ensures v.None? ==> s == "undefined"
  {
    v.GetOr("undefined")
  }

  /** A query parameter that JavaScript would treat as truthy: present and non-empty. */
  function NonEmpty(q: Query, name: string): (r: Option<string>)
    ensures r.Some? <==> Get(q, name).Some? && Get(q, name).value != ""
    ensures r.Some? ==> r == Get(q, name)
  {
    match Get(q, name)
    case Some(v) => if v != "" then Some(v) else None
    case None => None
  }

  /** `base?name1=enc(value1)&name2=enc(value2)...`; names are written literally. */
  function TemplateUrl(base: string, params: Query, encode: string -> string): (url: string)
    ensures |url| > |base| && url[..|base| + 1] == base + "?"
  {
    base + "?" + Join(seq(|params|, i requires 0 <= i < |params| => params[i].0 + "=" + encode(params[i].1)), '&')
  }

  /** The template written out for one and for two parameters. */
  lemma TemplateUrlSpelled(base: string, n1: string, v1: string, n2: string, v2: string, encode: string -> string)
    ensures TemplateUrl(base, [(n1, v1)], encode) == base + "?" + n1 + "=" + encode(v1)
    ensures TemplateUrl(base, [(n1, v1), (n2, v2)], encode)
         == base + "?" + n1 + "=" + encode(v1) + "&" + n2 + "=" + encode(v2)
  {
    var one: Query := [(n1, v1)];
    var two: Query := [(n1, v1), (n2, v2)];
    var p1 := n1 + "=" + encode(v1);
    var p2 := n2 + "=" + encode(v2);
    assert seq(|one|, i requires 0 <= i < |one| => one[i].0 + "=" + encode(one[i].1)) == [p1];
    var parts := seq(|two|, i requires 0 <= i < |two| => two[i].0 + "=" + encode(two[i].1));
    assert parts == [p1, p2];
    assert Join(parts, '&') == p1 + "&" + p2 by {
      assert parts[1..] == [p2];
    }
  }

  /**
   * The route of a GET: the incoming one, except that a missing or empty
   * route and exactly `"list"` both become `"calendar_list"`.
   */
  function GetRoute(q: Query): (route: string)
    ensures NonEmpty(q, "route").None? ==> route == "calendar_list"
    ensures NonEmpty(q, "route") == Some("list") ==> route == "calendar_list"
    ensures NonEmpty(q, "route").Some? && NonEmpty(q, "route") != Some("list") ==> Some(route) == Get(q, "route")
  {
    var r := NonEmpty(q, "route").GetOr("calendar_list");
    if r == "list" then "calendar_list" else r
  }

  /** The query of the upstream GET: the route and the key, nothing else. */
  function GetParams(q: Query, env: Env): (ps: Query)
    ensures Names(ps) == ["route", "key"]
    ensures Get(ps, "route") == Some(GetRoute(q)) && Get(ps, "key") == Some(JsText(env.gsKey))
  {
    [("route", GetRoute(q)), ("key", JsText(env.gsKey))]
  }

  /** The route of a POST: the incoming one lower-cased, or empty when missing; never checked. */
  function PostRoute(q: Query): (route: string)
    ensures NonEmpty(q, "route").None? ==> route == ""
    ensures NonEmpty(q, "route").Some? ==> route == AsciiLower(NonEmpty(q, "route").value)
  {
    AsciiLower(NonEmpty(q, "route").GetOr(""))
  }

  /** The query of the upstream POST: the route, then `id` only when it is non-empty; never the key. */
  function PostParams(q: Query): (ps: Query)
    ensures Get(ps, "route") == Some(PostRoute(q))
    ensures Get(ps, "id") == NonEmpty(q, "id")
    ensures Get(ps, "key").None?
    ensures Names(ps) == if NonEmpty(q, "id").Some? then ["route", "id"] else ["route"]
  {
    var id := NonEmpty(q, "id").GetOr("");
    var ps := if id != "" then [("route", PostRoute(q)), ("id", id)] else [("route", PostRoute(q))];
    assert "key"[0] != "route"[0] && "key"[0] != "id"[0];
    GetFirst(ps, "key");
    ps
  }

  /**
   * `{ ...body, key: GS_KEY }` as `JSON.stringify` sees it: every field of
   * the client's body except `key`, which is the server key; with the key
   * unset the property is `undefined` and is dropped, client key included.
   */
  function Payload(body: Json, key: Option<string>): (p: map<string, Json>)
    ensures key.Some? ==> "key" in p && p["key"] == JStr(key.value)
    ensures key.None? ==> "key" !in p
    ensures forall n :: n != "key" ==> (n in p <==> n in SpreadFields(body))
    ensures forall n :: n != "key" && n in p ==> p[n] == SpreadFields(body)[n]
  {
    var fields := SpreadFields(body);
    if key.Some? then fields["key" := JStr(key.value)] else fields - {"key"}
  }

  /**
   * `fetchJson`'s reading of the upstream answer: the parsed body when it is
   * JSON, otherwise an envelope with the upstream status and the complete
   * text. A thrown `fetch` or `r.text()` is not caught (`None`).
   */
  function FetchJson(outcome: FetchOutcome, parse: string -> Option<Json>): (r: Option<Json>)
    ensures r.None? <==> !outcome.Responded?
    ensures outcome.Responded? && parse(outcome.raw).Some? ==> r == parse(outcome.raw)
    ensures outcome.Responded? && parse(outcome.raw).None? ==>
      r == Some(JObj(map[
        "ok" := JBool(false), "status" := JNum(outcome.status),
        "error" := JStr("non_json_from_gs"), "body" := JStr(outcome.raw)]))
  {
    match outcome
    case Threw(_) => None
    case BodyThrew(_) => None
    case Responded(status, txt) =>
      match parse(txt)
      case Some(json) => Some(json)
      case None => Some(JObj(map[
        "ok" := JBool(false), "status" := JNum(status),
        "error" := JStr("non_json_from_gs"), "body" := JStr(txt)]))
  }

  /** `NextResponse.json(data)` for what `fetchJson` returned: 200, or the uncaught exception. */
  function Reply(outcome: FetchOutcome, parse: string -> Option<Json>): (out: Outcome)
    ensures out.Uncaught? <==> !outcome.Responded?
    ensures out.Answer? ==> out.response == Response(200, FetchJson(outcome, parse), [])
  {
    var data := FetchJson(outcome, parse);
    if data.None? then Uncaught("fetch failed") else Answer(Response(200, data, []))
  }

  /** The GET handler. */
  function HandleGet(
    env: Env, q: Query, encode: string -> string,
    fetch: UpstreamCall -> FetchOutcome, parse: string -> Option<Json>): (x: Exchange)
    ensures x.call.url == TemplateUrl(JsText(env.gsUrl), GetParams(q, env), encode)
    ensures x.call.init.verb == "GET" && x.call.init.body.None? && x.call.init.cache == "no-store"
    ensures x.out.Uncaught? <==> !fetch(x.call).Responded?
    ensures x.out.Answer? ==>
      x.out.response.status == 200 && x.out.response.body == FetchJson(fetch(x.call), parse)
  {
    var url := TemplateUrl(JsText(env.gsUrl), GetParams(q, env), encode);
    var call := UpstreamCall(url, FetchInit("GET", [], None, "no-store"));
    Exchange(call, Reply(fetch(call), parse))
  }

  /** The POST handler: `bodyText` is the request body, `{}` when it does not parse. */
  function HandlePost(
    env: Env, q: Query, bodyText: string, encode: string -> string,
    fetch: UpstreamCall -> FetchOutcome, parse: string -> Option<Json>,
    stringify: Json -> string): (x: Exchange)
    ensures x.call.url == TemplateUrl(JsText(env.gsUrl), PostParams(q), encode)
    ensures x.call.init.verb == "POST" && x.call.init.headers == JsonContentType && x.call.init.cache == "no-store"
    ensures x.call.init.body == Some(stringify(JObj(Payload(parse(bodyText).GetOr(EmptyObject), env.gsKey))))
    ensures x.out.Uncaught? <==> !fetch(x.call).Responded?
    ensures x.out.Answer? ==>
      x.out.response.status == 200 && x.out.response.body == FetchJson(fetch(x.call), parse)
  {
    var body := parse(bodyText).GetOr(EmptyObject);
    var payload := stringify(JObj(Payload(body, env.gsKey)));
    var url := TemplateUrl(JsText(env.gsUrl), PostParams(q), encode);
    var call := UpstreamCall(url, FetchInit("POST", JsonContentType, Some(payload), "no-store"));
    Exchange(call, Reply(fetch(call), parse))
  }
}

=== FILE: dp_dashboard.dfy ===
/**
 * The computations of the personnel-department dashboard
 * (`src/app/dp/DpDashboard.tsx`): the three-way PJ filter with "Todas" as a
 * wildcard, the PJ total, the termination total, the CSV export and the
 * four-step wizard, with the dashboard's state as a class.
 */
module DpDashboard {
  import opened Wrappers
  import opened Text
  import opened DpService

  /** The selector value that matches everything. */
  const All: string := "Todas"

  /** The three selectors: competência, área and status. */
  datatype PjFilter = PjFilter(competencia: string, area: string, status: string)

  const NoFilter: PjFilter := PjFilter(All, All, All)

  /** One selector accepts a field when it is the wildcard or names that very field. */
  predicate Accepts(selected: string, field: string)
  {
    selected == All || field == selected
  }

  /** The filter keeps an item when each of the three selectors accepts the item's field. */
  predicate Keeps(f: PjFilter, item: PjClosingItem)
  {
    Accepts(f.competencia, item.competencia) && Accepts(f.area, item.area)
    && Accepts(f.status, StatusLabel(item.status))
  }

  /** `pjItems`: the items the filter keeps, in their order. */
  function FilterPj(items: seq<PjClosingItem>, f: PjFilter): (r: seq<PjClosingItem>)
    ensures |r| <= |items|
    ensures forall x :: x in r <==> x in items && Keeps(f, x)
  {
    if items == [] then []
    else (if Keeps(f, items[0]) then [items[0]] else []) + FilterPj(items[1..], f)
  }

  /** `a` is `b` with some elements left out and the rest in the same order. */
  predicate IsSubsequence<T(==)>(a: seq<T>, b: seq<T>)
    decreases |b|
  {
    a == [] || (b != [] && ((a[0] == b[0] && IsSubsequence(a[1..], b[1..])) || IsSubsequence(a, b[1..])))
  }

  /** The filtered list keeps the order of the snapshot. */
  lemma {:induction false} FilterIsSubsequence(items: seq<PjClosingItem>, f: PjFilter)
    ensures IsSubsequence(FilterPj(items, f), items)
  {
    if items != [] {
      FilterIsSubsequence(items[1..], f);
      var r := FilterPj(items, f);
      if Keeps(f, items[0]) {
        assert r == [items[0]] + FilterPj(items[1..], f);
        assert r[0] == items[0] && r[1..] == FilterPj(items[1..], f);
        assert IsSubsequence(r[1..], items[1..]);
      } else {
        assert r == FilterPj(items[1..], f);
      }
    }
  }

  /** A kept item appears in the filtered list as often as in the snapshot; any other item never. */
  lemma {:induction false} FilterCounts(items: seq<PjClosingItem>, f: PjFilter, x: PjClosingItem)
    ensures multiset(FilterPj(items, f))[x] == if Keeps(f, x) then multiset(items)[x] else 0
  {
    if items != [] {
      var head := if Keeps(f, items[0]) then [items[0]] else [];
      FilterCounts(items[1..], f, x);
      assert items == [items[0]] + items[1..];
      assert multiset(items)[x] == multiset([items[0]])[x] + multiset(items[1..])[x];
      assert multiset(FilterPj(items, f))[x] == multiset(head)[x] + multiset(FilterPj(items[1..], f))[x];
    }
  }

  /** With the three selectors at "Todas" the list is the whole snapshot. */
  lemma {:induction false} NoFilterKeepsAll(items: seq<PjClosingItem>)
    ensures FilterPj(items, NoFilter) == items
  {
    if items != [] {
      NoFilterKeepsAll(items[1..]);
      assert [items[0]] + items[1..] == items;
    }
  }

  /** Choosing one status, and nothing else, keeps exactly the items with that status. */
  lemma StatusSelection(s: PjStatus, x: PjClosingItem)
    ensures Keeps(PjFilter(All, All, StatusLabel(s)), x) <==> x.status == s
  {
    StatusLabelsDistinct(x.status, s);
  }

  /** The sum of `valor`, the reference for the PJ total. */
  function Sum(items: seq<PjClosingItem>): int
  {
    if items == [] then 0 else items[0].valor + Sum(items[1..])
  }

  /** `items.reduce((acc, item) => acc + item.valor, acc)`: a left fold. */
  function ReduceValor(acc: int, items: seq<PjClosingItem>): int
    decreases |items|
  {
    if items == [] then acc else ReduceValor(acc + items[0].valor, items[1..])
  }

  lemma {:induction false} ReduceIsSum(acc: int, items: seq<PjClosingItem>)
    ensures ReduceValor(acc, items) == acc + Sum(items)
    decreases |items|
  {
    if items != [] {
      ReduceIsSum(acc + items[0].valor, items[1..]);
    }
  }

  /** `pjTotal`: the sum of `valor` over the filtered items, 0 when none remain. */
  function PjTotal(items: seq<PjClosingItem>, f: PjFilter): (total: int)
    ensures total == Sum(FilterPj(items, f))
    ensures FilterPj(items, f) == [] ==> total == 0
  {
    ReduceIsSum(0, FilterPj(items, f));
    ReduceValor(0, FilterPj(items, f))
  }

  /**
   * With no negative amounts, a filtered total lies between 0 and the total
   * of the whole snapshot, which it equals when nothing is filtered out.
   */
  lemma {:induction false} PjTotalBounds(items: seq<PjClosingItem>, f: PjFilter)
    requires forall i :: 0 <= i < |items| ==> items[i].valor >= 0
    ensures 0 <= PjTotal(items, f) <= Sum(items)
  {
    if items != [] {
      PjTotalBounds(items[1..], f);
      var rest := FilterPj(items[1..], f);
      if Keeps(f, items[0]) {
        assert ([items[0]] + rest)[1..] == rest;
      } else {
        assert FilterPj(items, f) == rest;
      }
    }
  }

  lemma PjTotalUnfiltered(items: seq<PjClosingItem>)
    ensures PjTotal(items, NoFilter) == Sum(items)
  {
    NoFilterKeepsAll(items);
  }

  /** `totalRescisao`: the five earnings less the deductions. */
  function TotalRescisao(c: RescisaoCase): (total: int)
    ensures total + c.descontos
         == c.salarioBase + c.avisoPrevio + c.feriasProporcionais + c.decimoTerceiro + c.saldoFgts
  {
    c.salarioBase + c.avisoPrevio + c.feriasProporcionais + c.decimoTerceiro + c.saldoFgts - c.descontos
  }

  /** The characters a formatted amount is made of. */
  predicate MoneyChar(ch: char) { IsDigit(ch) || ch == ',' || ch == '-' }

  /** Digits, a comma and two more digits: an unsigned amount as `Money` writes it. */
  predicate IsMoneyBody(b: string)
  {
    |b| >= 4 && b[|b| - 3] == ',' && AllDigits(b[..|b| - 3]) && AllDigits(b[|b| - 2..])
  }

  /** The centavos an unsigned amount text stands for. */
  function MoneyBodyValue(b: string): nat
    requires IsMoneyBody(b)
  {
    100 * ParseDecimal(b[..|b| - 3]) + ParseDecimal(b[|b| - 2..])
  }

  /** The whole reais of an amount in centavos, a comma and the two digits of the centavos. */
  function Unsigned(a: nat): (s: string)
    ensures IsMoneyBody(s) && MoneyBodyValue(s) == a
    ensures IsDigit(s[0])
    ensures forall i :: 0 <= i < |s| ==> MoneyChar(s[i])
    ensures s[0] == '0' ==> a < 100
  {
    var whole, frac := NatToDecimal(a / 100), PadStart2(NatToDecimal(a % 100));
    DecimalRoundTrip(a / 100);
    PaddedTwoDigits(a % 100);
    AmountShape(whole, frac);
    whole + "," + frac
  }

  /** Digits, a comma and two digits make a money body whose parts read back as written. */
  lemma AmountShape(whole: string, frac: string)
    requires |whole| >= 1 && AllDigits(whole) && |frac| == 2 && AllDigits(frac)
    ensures var s := whole + "," + frac;
      && IsMoneyBody(s) && s[..|s| - 3] == whole && s[|s| - 2..] == frac
      && IsDigit(s[0]) && forall i :: 0 <= i < |s| ==> MoneyChar(s[i])
  {
    SplitAtLast(whole, ',', frac);
  }

  /**
   * `valor.toFixed(2).replace(".", ",")` for an amount in centavos: a minus
   * sign for a negative amount, then the unsigned amount.
   */
  function Money(cents: int): (s: string)
    ensures |s| >= 4
    ensures forall i :: 0 <= i < |s| ==> MoneyChar(s[i])
    ensures cents < 0 <==> s[0] == '-'
    ensures var digits := if cents < 0 then s[1..] else s; digits[0] == '0' ==> -100 < cents < 100
  {
    if cents < 0 then "-" + Unsigned(-cents) else Unsigned(cents)
  }

  /** A text of the shape `Money` writes. */
  predicate IsMoneyText(s: string)
  {
    IsMoneyBody(if |s| > 0 && s[0] == '-' then s[1..] else s)
  }

  /** Reads a formatted amount back into centavos. */
  function ParseMoney(s: string): int
    requires IsMoneyText(s)
  {
    if |s| > 0 && s[0] == '-' then -(MoneyBodyValue(s[1..]) as int) else MoneyBodyValue(s)
  }

  /** The "Valor" column loses nothing: the text reads back as the amount. */
  lemma MoneyRoundTrip(cents: int)
    ensures IsMoneyText(Money(cents)) && ParseMoney(Money(cents)) == cents
  {
    var a: nat := if cents < 0 then -cents else cents;
    var u, m := Unsigned(a), Money(cents);
    if cents < 0 {
      assert m[1..] == u;
    } else {
      assert m == u;
    }
  }

  const CsvHeaders: seq<string> := ["ID", "Parceiro", "Área", "Competência", "Valor", "Status", "Risco"]

  /** The row of one item, in the column order of the headers. */
  function CsvRow(item: PjClosingItem): (row: seq<string>)
    ensures |row| == |CsvHeaders|
    ensures row[0] == item.id && row[1] == item.parceiro && row[2..] == RowTail(item)
  {
    [item.id, item.parceiro] + RowTail(item)
  }

  /** The columns after the partner: area, month, amount, status and risk. */
  function RowTail(item: PjClosingItem): seq<string>
  {
    [item.area, item.competencia, Money(item.valor), StatusLabel(item.status), RiscoLabel(item.risco)]
  }

  /** The headers, then one row per item. */
  function CsvTable(items: seq<PjClosingItem>): (t: seq<seq<string>>)
    ensures |t| == 1 + |items| && t[0] == CsvHeaders
    ensures forall i :: 0 <= i < |items| ==> t[i + 1] == CsvRow(items[i])
  {
    var rows := seq(|items|, i requires 0 <= i < |items| => CsvRow(items[i]));
    var t := [CsvHeaders] + rows;
    assert forall i :: 0 <= i < |items| ==> t[i + 1] == rows[i];
    t
  }

  /** The export: each row joined with `;`, the lines joined with a newline; nothing is quoted. */
  function Csv(items: seq<PjClosingItem>): string
  {
    var t := CsvTable(items);
    Join(seq(|t|, i requires 0 <= i < |t| => Join(t[i], ';')), '\n')
  }

  /** A text field that neither separator occurs in. */
  predicate PlainField(s: string) { ';' !in s && '\n' !in s }

  predicate PlainItem(item: PjClosingItem)
  {
    PlainField(item.id) && PlainField(item.parceiro) && PlainField(item.area) && PlainField(item.competencia)
  }

  lemma MoneyIsPlain(cents: int)
    ensures PlainField(Money(cents))
  {
    var m := Money(cents);
    assert forall k :: 0 <= k < |m| ==> m[k] != ';' && m[k] != '\n';
  }

  lemma LabelsArePlain(s: PjStatus, r: Risco)
    ensures PlainField(StatusLabel(s)) && PlainField(RiscoLabel(r))
  {
    match s {
      case Pendente =>
      case EmAnalise =>
      case Aprovado =>
      case Pago =>
    }
    match r {
      case Baixo =>
      case Medio =>
      case Alto =>
    }
  }

  lemma HeadersArePlain()
    ensures forall j :: 0 <= j < |CsvHeaders| ==> PlainField(CsvHeaders[j])
  {
    assert PlainField("Área") && PlainField("Competência");
  }

  lemma TailIsPlain(item: PjClosingItem)
    requires PlainField(item.area) && PlainField(item.competencia)
    ensures forall j :: 0 <= j < |RowTail(item)| ==> PlainField(RowTail(item)[j])
  {
    MoneyIsPlain(item.valor);
    LabelsArePlain(item.status, item.risco);
  }

  lemma RowIsPlain(item: PjClosingItem)
    requires PlainItem(item)
    ensures forall j :: 0 <= j < |CsvRow(item)| ==> PlainField(CsvRow(item)[j])
  {
    var row, tail := CsvRow(item), RowTail(item);
    TailIsPlain(item);
    assert forall j :: 2 <= j < |row| ==> row[j] == tail[j - 2];
  }

  /**
   * When no text field holds `;` or a newline, the export splits back into
   * 1 + |items| lines: the seven headers, then for each item, in order, its
   * seven fields.
   */
  lemma CsvLayout(items: seq<PjClosingItem>)
    requires forall i :: 0 <= i < |items| ==> PlainItem(items[i])
    ensures var lines := Split(Csv(items), '\n');
      && |lines| == 1 + |items|
      && Split(lines[0], ';') == CsvHeaders
      && forall i :: 0 <= i < |items| ==> Split(lines[i + 1], ';') == CsvRow(items[i])
  {
    var t := CsvTable(items);
    var joined := seq(|t|, i requires 0 <= i < |t| => Join(t[i], ';'));
    forall i | 0 <= i < |t|
      ensures '\n' !in joined[i] && Split(joined[i], ';') == t[i]
    {
      LineRoundTrip(t[i]);
    }
    SplitJoin(joined, '\n');
  }

  /** A line whose fields hold neither separator: it has no newline and splits back into its fields. */
  lemma LineRoundTrip(fields: seq<string>)
    requires fields == CsvHeaders || exists item :: PlainItem(item) && fields == CsvRow(item)
    ensures '\n' !in Join(fields, ';') && Split(Join(fields, ';'), ';') == fields
  {
    if fields == CsvHeaders {
      HeadersArePlain();
    } else {
      var item :| PlainItem(item) && fields == CsvRow(item);
      RowIsPlain(item);
    }
    JoinAvoids(fields, ';', '\n');
    SplitJoin(fields, ';');
  }

  /**
   * Nothing is escaped: a partner name `a;b` spreads over two columns, so
   * its row splits into eight fields, `a` and `b` in place of the name.
   */
  lemma SeparatorInFieldShiftsColumns(item: PjClosingItem, a: string, b: string)
    requires item.parceiro == a + [';'] + b
    requires PlainItem(item.(parceiro := a)) && PlainField(b)
    ensures Split(Join(CsvRow(item), ';'), ';') == [item.id, a, b] + RowTail(item)
    ensures |Split(Join(CsvRow(item), ';'), ';')| == |CsvHeaders| + 1
  {
    var rest := RowTail(item);
    TailIsPlain(item);
    SplitJoinSeparatorInPiece(item.id, a, b, rest, ';');
  }

  /** The wizard has steps 0 to 3. */
  const LastStep: int := 3

  /** "Voltar": `Math.max(0, step - 1)`. */
  function StepBack(step: int): (r: int)
    ensures r >= 0
    ensures step >= 1 ==> r == step - 1
    ensures step < 1 ==> r == 0
  {
    if step - 1 > 0 then step - 1 else 0
  }

  /** "Avançar": `Math.min(3, step + 1)`. */
  function StepForward(step: int): (r: int)
    ensures r <= LastStep
    ensures step < LastStep ==> r == step + 1
    ensures step >= LastStep ==> r == LastStep
  {
    if step + 1 < LastStep then step + 1 else LastStep
  }

  /** A click on one of the two wizard buttons. */
  datatype Click = Voltar | Avancar

  /** The step after a sequence of clicks. */
  function Walk(step: int, clicks: seq<Click>): int
    decreases |clicks|
  {
    if clicks == [] then step
    else Walk(if clicks[0] == Voltar then StepBack(step) else StepForward(step), clicks[1..])
  }

  /** From any step in 0..3, any sequence of clicks stays in 0..3. */
  lemma {:induction false} WalkStaysInRange(step: int, clicks: seq<Click>)
    requires 0 <= step <= LastStep
    ensures 0 <= Walk(step, clicks) <= LastStep
    decreases |clicks|
  {
    if clicks != [] {
      WalkStaysInRange(if clicks[0] == Voltar then StepBack(step) else StepForward(step), clicks[1..]);
    }
  }

  /** `n` clicks on "Avançar" from the first step reach step `n`, or the last one. */
  lemma {:induction false} AdvanceRepeatedly(step: int, n: nat)
    requires 0 <= step <= LastStep
    ensures Walk(step, seq(n, _ => Avancar)) == if step + n < LastStep then step + n else LastStep
    decreases n
  {
    if n > 0 {
      var clicks := seq(n, _ => Avancar);
      assert clicks[0] == Avancar && clicks[1..] == seq(n - 1, _ => Avancar);
      AdvanceRepeatedly(StepForward(step), n - 1);
    }
  }

  datatype Tone = Success | Error

  /** The banner shown after an export. */
  datatype Feedback = Feedback(tone: Tone, message: string)

  /** The dashboard's state; `data` is the snapshot it was given. */
  class Dashboard {
    const data: DpSnapshot
    var feedback: Option<Feedback>
    var competencia: string
    var area: string
    var status: string
    var step: int

    ghost predicate Valid()
      reads this
    {
      0 <= step <= LastStep
    }

    function Filter(): PjFilter
      reads this
    {
      PjFilter(competencia, area, status)
    }

    /** Every selector at "Todas", the first step, no banner. */
    constructor (data: DpSnapshot)
      ensures this.data == data && Valid()
      ensures Filter() == NoFilter && step == 0 && feedback.None?
    {
      this.data := data;
      feedback := None;
      competencia := All;
      area := All;
      status := All;
      step := 0;
    }

    method SelectCompetencia(v: string)
      modifies this
      ensures Filter() == old(Filter()).(competencia := v)
      ensures step == old(step) && feedback == old(feedback)
    {
      competencia := v;
    }

    method SelectArea(v: string)
      modifies this
      ensures Filter() == old(Filter()).(area := v)
      ensures step == old(step) && feedback == old(feedback)
    {
      area := v;
    }

    method SelectStatus(v: string)
      modifies this
      ensures Filter() == old(Filter()).(status := v)
      ensures step == old(step) && feedback == old(feedback)
    {
      status := v;
    }

    /** "Voltar". */
    method Back()
      modifies this
      ensures step == StepBack(old(step))
      ensures old(Valid()) ==> Valid()
      ensures Filter() == old(Filter()) && feedback == old(feedback)
    {
      step := StepBack(step);
    }

    /** "Avançar". */
    method Advance()
      modifies this
      ensures step == StepForward(old(step))
      ensures old(Valid()) ==> Valid()
      ensures Filter() == old(Filter()) && feedback == old(feedback)
    {
      step := StepForward(step);
    }

    /**
     * `handleExport()`: the CSV of the filtered items is handed to the
     * browser when the download goes through, and the banner reports
     * which way it went. `downloadOk` is whether the browser calls threw.
     */
    method Export(downloadOk: bool) returns (file: Option<string>)
      modifies this
      ensures file == if downloadOk then Some(Csv(FilterPj(data.itens, Filter()))) else None
      ensures feedback == Some(
        if downloadOk then Feedback(Success, "Exportação gerada com sucesso.")
        else Feedback(Error, "Falha ao gerar exportação."))
      ensures Filter() == old(Filter()) && step == old(step)
    {
      var csv := Csv(FilterPj(data.itens, Filter()));
      if downloadOk {
        file := Some(csv);
        feedback := Some(Feedback(Success, "Exportação gerada com sucesso."));
      } else {
        file := None;
        feedback := Some(Feedback(Error, "Falha ao gerar exportação."));
      }
    }
  }
}

=== FILE: dp_service.dfy ===
/**
 * The records of the personnel-department snapshot (`src/lib/dp-service.ts`).
 * Amounts of money are whole centavos, so that sums are exact; the string
 * unions become datatypes with the label each one shows as.
 */
module DpService {

  /** `PjStatus`. */
  datatype PjStatus = Pendente | EmAnalise | Aprovado | Pago

  function StatusLabel(s: PjStatus): string
  {
    match s
    case Pendente => "Pendente"
    case EmAnalise => "Em análise"
    case Aprovado => "Aprovado"
    case Pago => "Pago"
  }

  /** The risk of a PJ closing item. */
  datatype Risco = Baixo | Medio | Alto

  function RiscoLabel(r: Risco): string
  {
    match r
    case Baixo => "Baixo"
    case Medio => "Médio"
    case Alto => "Alto"
  }

  /** Distinct statuses show distinct labels, none of them the wildcard "Todas". */
  lemma StatusLabelsDistinct(a: PjStatus, b: PjStatus)
    ensures StatusLabel(a) == StatusLabel(b) <==> a == b
    ensures StatusLabel(a) != "Todas"
  {
  }

  /** `PjClosingItem`: one partner's monthly closing; `valor` in centavos. */
  datatype PjClosingItem = PjClosingItem(
    id: string,
    parceiro: string,
    area: string,
    competencia: string,
    valor: int,
    status: PjStatus,
    risco: Risco)

  /** `RescisaoCase`: a termination and its amounts, in centavos. */
  datatype RescisaoCase = RescisaoCase(
    colaborador: string,
    cargo: string,
    admissao: string,
    desligamento: string,
    motivo: string,
    salarioBase: int,
    saldoFgts: int,
    avisoPrevio: int,
    feriasProporcionais: int,
    decimoTerceiro: int,
    descontos: int)

  datatype FeriasStatus = EmAberto | Programada | Vencida

  /** An entry of `FeriasResumo.demonstrativos`. */
  datatype Demonstrativo = Demonstrativo(colaborador: string, periodo: string, dias: int, status: FeriasStatus)

  /** `FeriasResumo`. */
  datatype FeriasResumo = FeriasResumo(
    saldoDias: int,
    vencidasDias: int,
    proximaCompetencia: string,
    demonstrativos: seq<Demonstrativo>)

  /** The choices offered by the three PJ selectors. */
  datatype PjFiltros = PjFiltros(competencias: seq<string>, areas: seq<string>, status: seq<PjStatus>)

  /** `DpSnapshot`: `pj.itens`, `pj.filtros`, `rescisao.casoAtual` and `ferias`. */
  datatype DpSnapshot = DpSnapshot(
    itens: seq<PjClosingItem>,
    filtros: PjFiltros,
    casoAtual: RescisaoCase,
    ferias: FeriasResumo)
}

=== FILE: gs_route.dfy ===
/**
 * The generic proxy route in front of the Apps Script web app
 * (`src/app/api/gs/route.ts`). GET and POST both go through `ProxyToGS`,
 * which copies `route` and `id` from the incoming query onto the configured
 * upstream URL, always adds the server-side key, forwards the request body
 * for non-GET methods and turns the upstream answer into a JSON response.
 * A failure while reading the incoming body or the upstream body escapes
 * the handler.
 *
 * The environment, the incoming request, URL parsing (`new URL`), the
 * network (`fetch` followed by `res.text()`) and `JSON.parse` are all inputs.
 */
module GsRoute {
  import opened Wrappers
  import opened Json
  import opened Text
  import opened Http

  /**
   * The request the route is given: its HTTP method (`verb`), its parsed
   * query and what `req.text()` gives, `None` when reading the body rejects.
   */
  datatype IncomingRequest = IncomingRequest(verb: string, query: Query, bodyText: Option<string>)

  /** The request the route sends to the web app. */
  datatype UpstreamRequest = UpstreamRequest(target: Url, verb: string, headers: Headers, body: Option<string>)

  /** The three CORS headers every response of this route carries. */
  const CorsHeaders: Headers := [
    ("Access-Control-Allow-Origin", "*"),
    ("Access-Control-Allow-Methods", "GET,POST,OPTIONS"),
    ("Access-Control-Allow-Headers", "Content-Type, Authorization")
  ]

  const ResponseBodyLimit: nat := 400

  /** A JSON object whose `ok` is `false` and whose `error` is `code`. */
  predicate IsErrorEnvelope(j: Json, code: string)
  {
    j.JObj? && "ok" in j.fields && j.fields["ok"] == JBool(false)
    && "error" in j.fields && j.fields["error"] == JStr(code)
  }

  /** The pre-flight answer: 204, no body, the CORS headers. */
  function Options(): (r: Response)
    ensures r.status == 204 && r.body.None? && r.headers == CorsHeaders
  {
    Response(204, None, CorsHeaders)
  }

  /** Both settings are present and non-empty (neither is falsy). */
  predicate Configured(env: Env)
  {
    env.gsUrl.Some? && env.gsUrl.value != "" && env.gsKey.Some? && env.gsKey.value != ""
  }

  function MissingEnv(): (r: Response)
    ensures r.status == 500 && r.headers == CorsHeaders
    ensures r.body.Some? && IsErrorEnvelope(r.body.value, "missing_env")
  {
    Response(500, Some(JObj(map[
      "ok" := JBool(false),
      "error" := JStr("missing_env"),
      "detail" := JStr("GS_WEBAPP_URL/KEY ausentes")])), CorsHeaders)
  }

  /**
   * The body sent upstream for a non-GET request: the incoming text as it is,
   * or `{}` when that text is empty or white space only.
   */
  function ForwardedBody(text: string): (b: string)
    ensures !Blank(text) ==> b == text
    ensures Blank(text) ==> b == "{}"
  {
    TrimEmptyIffBlank(text);
    if text != "" && Trim(text) != "" then text else "{}"
  }

  /**
   * Turns the outcome of the upstream call into the route's answer. A
   * thrown `fetch` gives 502 with the exception text; a failure while
   * reading the body is outside the `try` and escapes the handler; a body
   * that parses as JSON is passed on unchanged with 200 whatever the
   * upstream status; any other body gives 200 with an error envelope
   * quoting at most the first 400 characters of the text.
   */
  function Normalize(outcome: FetchOutcome, parse: string -> Option<Json>): (out: Outcome)
    ensures out.Uncaught? <==> outcome.BodyThrew?
    ensures out.Answer? ==> out.response.headers == CorsHeaders
    ensures outcome.Threw? ==>
      var r := out.response;
      && r.status == 502 && r.body.Some? && IsErrorEnvelope(r.body.value, "fetch_failed")
      && r.body.value.fields.Keys == {"ok", "error", "detail"}
      && r.body.value.fields["detail"] == JStr(outcome.message)
    ensures outcome.Responded? && parse(outcome.raw).Some? ==>
      out.response.status == 200 && out.response.body == parse(outcome.raw)
    ensures outcome.Responded? && parse(outcome.raw).None? ==>
      var r := out.response;
      && r.status == 200 && r.body.Some? && IsErrorEnvelope(r.body.value, "non_json_from_gs")
      && r.body.value.fields.Keys == {"ok", "error", "body"}
      && var quoted := r.body.value.fields["body"];
      && quoted.JStr?
      && |quoted.s| == (if |outcome.raw| < ResponseBodyLimit then |outcome.raw| else ResponseBodyLimit)
      && quoted.s == outcome.raw[..|quoted.s|]
  {
    match outcome
    case Threw(message) =>
      Answer(Response(502, Some(JObj(map[
        "ok" := JBool(false), "error" := JStr("fetch_failed"), "detail" := JStr(message)])), CorsHeaders))
    case BodyThrew(message) => Uncaught(message)
    case Responded(_, raw) =>
      match parse(raw)
      case Some(json) => Answer(Response(200, Some(json), CorsHeaders))
      case None =>
        var excerpt := if |raw| < ResponseBodyLimit then raw else raw[..ResponseBodyLimit];
        Answer(Response(200, Some(JObj(map[
          "ok" := JBool(false), "error" := JStr("non_json_from_gs"), "body" := JStr(excerpt)])), CorsHeaders))
  }

  /** The names `proxyToGS` sets on the upstream URL. */
  predicate IsSetByProxy(name: string)
  {
    name == "route" || name == "id" || name == "key"
  }

  /** The pairs of a query other than `route`, `id` and `key`, in their order. */
  function Unrouted(q: Query): Query
  {
    if q == [] then []
    else if IsSetByProxy(q[0].0) then Unrouted(q[1..])
    else [q[0]] + Unrouted(q[1..])
  }

  /** Removing `route`, `id` or `key` leaves every other pair where it was. */
  lemma {:induction false} WithoutKeepsUnrouted(q: Query, name: string)
    requires IsSetByProxy(name)
    ensures Unrouted(Without(q, name)) == Unrouted(q)
  {
    if q != [] {
      WithoutKeepsUnrouted(q[1..], name);
    }
  }

  /** Setting `route`, `id` or `key` leaves every other pair where it was. */
  lemma {:induction false} SetKeepsUnrouted(q: Query, name: string, value: string)
    requires IsSetByProxy(name)
    ensures Unrouted(Set(q, name, value)) == Unrouted(q)
  {
    if q != [] {
      if q[0].0 == name {
        WithoutKeepsUnrouted(q[1..], name);
      } else {
        SetKeepsUnrouted(q[1..], name, value);
      }
    }
  }

  /**
   * The upstream URL of `proxyToGS`: the configured URL with `route` set,
   * `id` set only when present and non-empty, and `key` set to the server
   * key. `set` replaces a parameter the configured URL already has, so the
   * key occurs exactly once; every other parameter of the configured URL is
   * kept as it was.
   */
  method BuildTarget(base: Url, route: string, id: Option<string>, key: string) returns (target: Url)
    ensures target.location == base.location && target.fragment == base.fragment
    ensures Get(target.query, "route") == Some(route)
    ensures Get(target.query, "id") == (if id.Some? && id.value != "" then id else Get(base.query, "id"))
    ensures Get(target.query, "key") == Some(key) && Count(target.query, "key") == 1
    ensures forall n :: n != "route" && n != "id" && n != "key" ==> Get(target.query, n) == Get(base.query, n)
    ensures Unrouted(target.query) == Unrouted(base.query)
  {
    target := base;
    target := target.(query := Set(target.query, "route", route));
    assert Unrouted(target.query) == Unrouted(base.query) by {
      SetKeepsUnrouted(base.query, "route", route);
    }
    if id.Some? && id.value != "" {
      ghost var beforeId := target.query;
      target := target.(query := Set(target.query, "id", id.value));
      assert Unrouted(target.query) == Unrouted(beforeId) by {
        SetKeepsUnrouted(beforeId, "id", id.value);
      }
    }
    ghost var beforeKey := target.query;
    target := target.(query := Set(target.query, "key", key));
    assert Unrouted(target.query) == Unrouted(beforeKey) by {
      SetKeepsUnrouted(beforeKey, "key", key);
    }
    assert Get(target.query, "route") == Get(beforeKey, "route") && Get(target.query, "id") == Get(beforeKey, "id") by {
      assert "key" != "route" && "key" != "id";
    }
  }

  /**
   * `proxyToGS`. Without both settings it answers 500 `missing_env` and calls
   * nothing. Otherwise the upstream URL is the configured one with `route`
   * (the incoming value, `"list"` only when absent), `id` (only when present
   * and non-empty) and `key` (always the server key) set on it; nothing else
   * from the incoming query is forwarded. GET stays GET without a body; any
   * other method is sent as POST with the forwarded body. A configured URL
   * that does not parse makes `new URL` throw out of the handler, and so
   * does a body that cannot be read, before anything is sent.
   */
  method ProxyToGS(
    env: Env, req: IncomingRequest,
    parseUrl: string -> Option<Url>,
    fetch: UpstreamRequest -> FetchOutcome,
    parse: string -> Option<Json>)
    returns (call: Option<UpstreamRequest>, out: Outcome)
    ensures !Configured(env) ==> call.None? && out == Answer(MissingEnv())
    ensures Configured(env) && parseUrl(env.gsUrl.value).None? ==> call.None? && out.Uncaught?
    ensures Configured(env) && parseUrl(env.gsUrl.value).Some? && req.verb != "GET" && req.bodyText.None? ==>
      call.None? && out.Uncaught?
    ensures Configured(env) && parseUrl(env.gsUrl.value).Some? && (req.verb == "GET" || req.bodyText.Some?) ==>
      var base := parseUrl(env.gsUrl.value).value;
      var inId := Get(req.query, "id");
      && call.Some?
      && call.value.target.location == base.location
      && call.value.target.fragment == base.fragment
      && Get(call.value.target.query, "route") == Some(Get(req.query, "route").GetOr("list"))
      && Get(call.value.target.query, "key") == env.gsKey
      && Count(call.value.target.query, "key") == 1
      && Get(call.value.target.query, "id")
         == (if inId.Some? && inId.value != "" then inId else Get(base.query, "id"))
      && (forall n :: n != "route" && n != "id" && n != "key" ==>
            Get(call.value.target.query, n) == Get(base.query, n))
      && Unrouted(call.value.target.query) == Unrouted(base.query)
      && call.value.headers == JsonContentType
      && (req.verb == "GET" ==> call.value.verb == "GET" && call.value.body.None?)
      && (req.verb != "GET" ==>
            call.value.verb == "POST" && call.value.body == Some(ForwardedBody(req.bodyText.value)))
      && out == Normalize(fetch(call.value), parse)
    ensures out.Answer? ==> out.response.headers == CorsHeaders
  {
    if !Configured(env) {
      return None, Answer(MissingEnv());
    }
    var gsUrl, gsKey := env.gsUrl.value, env.gsKey.value;

    var route := Get(req.query, "route").GetOr("list");
    var id := Get(req.query, "id");

    var parsed := parseUrl(gsUrl);
    if parsed.None? {
      return None, Uncaught("invalid GS_WEBAPP_URL");
    }
    var target := BuildTarget(parsed.value, route, id, gsKey);

    var isGet := req.verb == "GET";
    var init := UpstreamRequest(target, if isGet then "GET" else "POST", JsonContentType, None);
    if !isGet {
      if req.bodyText.None? {
        return None, Uncaught("reading the request body failed");
      }
      init := init.(body := Some(ForwardedBody(req.bodyText.value)));
    }

    call := Some(init);
    out := Normalize(fetch(init), parse);
  }
}

=== FILE: http.dfy ===
/**
 * What the two proxy routes exchange with the browser and with the upstream
 * Apps Script web app: ordered query parameters with the `URLSearchParams`
 * operations `get` and `set`, parsed URLs, responses and the outcome of a
 * `fetch`.
 */
module Http {
  import opened Wrappers
  import opened Json

  /** The name/value pairs of a query string, in order; a name may repeat. */
  type Query = seq<(string, string)>

  /** `searchParams.get(name)`: the value of the first pair with that name, `null` if none. */
  function Get(q: Query, name: string): Option<string>
  {
    if q == [] then None
    else if q[0].0 == name then Some(q[0].1)
    else Get(q[1..], name)
  }

  /** `get` finds nothing exactly when no pair has the name, and otherwise the value of the first pair that has it. */
  lemma {:induction false} GetFirst(q: Query, name: string)
    ensures Get(q, name).None? <==> forall i :: 0 <= i < |q| ==> q[i].0 != name
    ensures Get(q, name).Some? ==>
      exists i :: 0 <= i < |q| && q[i] == (name, Get(q, name).value) && forall j :: 0 <= j < i ==> q[j].0 != name
  {
    if q != [] && q[0].0 != name {
      GetFirst(q[1..], name);
      assert forall i :: 0 <= i < |q[1..]| ==> q[1..][i] == q[i + 1];
      if Get(q, name).Some? {
        var i :| 0 <= i < |q[1..]| && q[1..][i] == (name, Get(q, name).value) && forall j :: 0 <= j < i ==> q[1..][j].0 != name;
        assert q[i + 1] == (name, Get(q, name).value);
      }
    }
  }

  /** The number of pairs named `name`. */
  function Count(q: Query, name: string): nat
  {
    if q == [] then 0 else (if q[0].0 == name then 1 else 0) + Count(q[1..], name)
  }

  /** The pairs whose name is not `name`, in their original order. */
  function Without(q: Query, name: string): (r: Query)
    ensures |r| <= |q|
    ensures Count(r, name) == 0
    ensures forall i :: 0 <= i < |r| ==> r[i].0 != name
    ensures forall n :: n != name ==> Get(r, n) == Get(q, n)
  {
    if q == [] then []
    else if q[0].0 == name then Without(q[1..], name)
    else [q[0]] + Without(q[1..], name)
  }

  /**
   * `searchParams.set(name, value)`: the first pair named `name` takes the new
   * value and the other pairs of that name are removed; with no such pair the
   * new pair is appended. Afterwards the name occurs exactly once, with
   * `value`, and the pairs of every other name are untouched and in order.
   */
  function Set(q: Query, name: string, value: string): (r: Query)
    ensures Get(r, name) == Some(value)
    ensures Count(r, name) == 1
    ensures forall n :: n != name ==> Get(r, n) == Get(q, n)
  {
    if q == [] then [(name, value)]
    else if q[0].0 == name then [(name, value)] + Without(q[1..], name)
    else [q[0]] + Set(q[1..], name, value)
  }

  /** `set` leaves the pairs of every other name as they were, in their order. */
  lemma {:induction false} SetKeepsOthers(q: Query, name: string, value: string)
    ensures Without(Set(q, name, value), name) == Without(q, name)
  {
    if q == [] {
    } else if q[0].0 == name {
      var rest := Without(q[1..], name);
      WithoutNoOccurrence(rest, name);
    } else {
      SetKeepsOthers(q[1..], name, value);
    }
  }

  /** Removing a name that does not occur changes nothing. */
  lemma {:induction false} WithoutNoOccurrence(q: Query, name: string)
    requires forall i :: 0 <= i < |q| ==> q[i].0 != name
    ensures Without(q, name) == q
  {
    if q != [] {
      WithoutNoOccurrence(q[1..], name);
      assert [q[0]] + q[1..] == q;
    }
  }

  /** The names of a query, in order. */
  function Names(q: Query): (ns: seq<string>)
    ensures |ns| == |q| && forall i :: 0 <= i < |q| ==> ns[i] == q[i].0
  {
    seq(|q|, i requires 0 <= i < |q| => q[i].0)
  }

  /** A parsed absolute URL: everything before the query, the query, the fragment. */
  datatype Url = Url(location: string, query: Query, fragment: string)

  type Headers = seq<(string, string)>

  /** An HTTP response sent back to the browser; `body` is absent for `null` bodies. */
  datatype Response = Response(status: int, body: Option<Json>, headers: Headers)

  /**
   * What awaiting `fetch(...)` and then `res.text()` gives: `fetch` itself
   * rejects (`Threw`), `fetch` resolves but reading the body rejects
   * (`BodyThrew`), or a status and the text.
   */
  datatype FetchOutcome = Threw(message: string) | BodyThrew(message: string) | Responded(status: int, raw: string)

  /**
   * A route handler either answers or lets an exception escape, in which case
   * the framework answers with its own error page.
   */
  datatype Outcome = Answer(response: Response) | Uncaught(reason: string)

  /** The server configuration both proxy routes read: GS_WEBAPP_URL and GS_WEBAPP_KEY, each possibly unset. */
  datatype Env = Env(gsUrl: Option<string>, gsKey: Option<string>)

  const JsonContentType: Headers := [("Content-Type", "application/json")]
}

=== FILE: json.dfy ===
/**
 * JSON values as `JSON.parse` produces them and `NextResponse.json` sends
 * them. Numbers are integers here; objects are maps, so the order of their
 * keys is not part of the value.
 */
module Json {

  datatype Json =
    | JNull
    | JBool(b: bool)
    | JNum(n: int)
    | JStr(s: string)
    | JArr(items: seq<Json>)
    | JObj(fields: map<string, Json>)

  /** The object `{}`. */
  const EmptyObject: Json := JObj(map[])

  /**
   * The properties that the object spread `{ ...v }` copies out of a parsed
   * JSON value: those of an object, none for `null`, booleans and numbers.
   */
  function SpreadFields(v: Json): (m: map<string, Json>)
    ensures v.JObj? ==> m == v.fields
    ensures v.JNull? || v.JBool? || v.JNum? ==> m == map[]
  {
    if v.JObj? then v.fields else map[]
  }
}

=== FILE: text.dfy ===
/**
 * String helpers with the meaning JavaScript gives them: decimal `String(n)`,
 * `padStart`, `Array.prototype.join` and `String.prototype.split` with a
 * one-character separator, `trim` with ECMAScript's white-space set, and
 * `toLowerCase` restricted to ASCII letters.
 */
module Text {

  predicate IsDigit(c: char) { '0' <= c <= '9' }

  predicate AllDigits(s: string) { forall i :: 0 <= i < |s| ==> IsDigit(s[i]) }

  function Digit(d: nat): (c: char)
    requires d < 10
    ensures IsDigit(c)
  {
    ('0' as int + d) as char
  }

  function DigitValue(c: char): (d: nat)
    requires IsDigit(c)
    ensures d < 10
  {
    c as int - '0' as int
  }

  /** `String(n)` for a non-negative integer: its decimal digits, no leading zero. */
  function NatToDecimal(n: nat): (s: string)
    ensures |s| >= 1 && AllDigits(s)
    ensures s[0] == '0' ==> n == 0
    decreases n
  {
    if n < 10 then [Digit(n)] else NatToDecimal(n / 10) + [Digit(n % 10)]
  }

  /** Reads a string of decimal digits back as a number (leading zeros allowed). */
  function ParseDecimal(s: string): nat
    requires AllDigits(s)
  {
    if s == [] then 0 else 10 * ParseDecimal(s[..|s| - 1]) + DigitValue(s[|s| - 1])
  }

  lemma {:induction false} DecimalRoundTrip(n: nat)
    ensures ParseDecimal(NatToDecimal(n)) == n
  {
    if n >= 10 {
      var s := NatToDecimal(n);
      assert s[..|s| - 1] == NatToDecimal(n / 10);
      DecimalRoundTrip(n / 10);
    }
  }

  /** `String(i)` for any integer: a minus sign before the digits of a negative number. */
  function IntToString(i: int): (s: string)
    ensures |s| >= 1
    ensures i < 0 <==> s[0] == '-'
    ensures i >= 0 ==> AllDigits(s)
    ensures i < 0 ==> AllDigits(s[1..])
  {
    if i < 0 then "-" + NatToDecimal(-i) else NatToDecimal(i)
  }

  predicate IsIntText(s: string) {
    |s| >= 1 && (if s[0] == '-' then AllDigits(s[1..]) else AllDigits(s))
  }

  function ParseInt(s: string): int
    requires IsIntText(s)
  {
    if s[0] == '-' then -(ParseDecimal(s[1..]) as int) else ParseDecimal(s)
  }

  /** `String` on integers is injective: the text reads back as the same number. */
  lemma IntRoundTrip(i: int)
    ensures IsIntText(IntToString(i)) && ParseInt(IntToString(i)) == i
  {
    if i < 0 {
      assert IntToString(i)[1..] == NatToDecimal(-i);
      DecimalRoundTrip(-i);
    } else {
      DecimalRoundTrip(i);
    }
  }

  /** `s.padStart(2, '0')`. */
  function PadStart2(s: string): (r: string)
    ensures |r| == if |s| >= 2 then |s| else 2
    ensures r[|r| - |s|..] == s
    ensures forall i :: 0 <= i < |r| - |s| ==> r[i] == '0'
  {
    if |s| >= 2 then s else seq(2 - |s|, _ => '0') + s
  }

  /** A number below 100 padded to two digits reads back as itself. */
  lemma PaddedTwoDigits(k: nat)
    requires k < 100
    ensures |PadStart2(NatToDecimal(k))| == 2
    ensures AllDigits(PadStart2(NatToDecimal(k)))
    ensures ParseDecimal(PadStart2(NatToDecimal(k))) == k
  {
    var s := NatToDecimal(k);
    var p := PadStart2(s);
    DecimalRoundTrip(k);
    if k < 10 {
      assert p == "0" + s && p[..1] == "0";
    }
  }

  /** A text ending in a separator and two characters splits back into its head and those two. */
  lemma SplitAtLast(head: string, sep: char, tail: string)
    requires |tail| == 2
    ensures var s := head + [sep] + tail;
      s[..|s| - 3] == head && s[|s| - 3] == sep && s[|s| - 2..] == tail
  {
  }

  /** `parts.join(sep)` for a one-character separator. */
  function Join(parts: seq<string>, sep: char): string
  {
    if |parts| == 0 then ""
    else if |parts| == 1 then parts[0]
    else parts[0] + [sep] + Join(parts[1..], sep)
  }

  /**
   * Nothing is escaped: when the second piece holds the separator, splitting
   * the joined text gives back the two halves of that piece as two pieces.
   */
  lemma SplitJoinSeparatorInPiece(first: string, a: string, b: string, rest: seq<string>, sep: char)
    requires sep !in first && sep !in a && sep !in b
    requires forall i :: 0 <= i < |rest| ==> sep !in rest[i]
    ensures Split(Join([first, a + [sep] + b] + rest, sep), sep) == [first, a, b] + rest
  {
    var merged, split := [first, a + [sep] + b] + rest, [first, a, b] + rest;
    JoinSeparatorInPiece(a, b, rest, sep);
    assert merged[1..] == [a + [sep] + b] + rest;
    assert split[1..] == [a, b] + rest;
    assert Join(merged, sep) == Join(split, sep);
    SplitJoin(split, sep);
  }

  /** A character found in no piece and different from the separator is not in the joined text. */
  lemma {:induction false} JoinAvoids(parts: seq<string>, sep: char, c: char)
    requires c != sep
    requires forall i :: 0 <= i < |parts| ==> c !in parts[i]
    ensures c !in Join(parts, sep)
  {
    if |parts| > 1 {
      JoinAvoids(parts[1..], sep, c);
    }
  }

  /** A piece that itself contains the separator joins like the two pieces around it. */
  lemma JoinSeparatorInPiece(a: string, b: string, rest: seq<string>, sep: char)
    ensures Join([a + [sep] + b] + rest, sep) == Join([a, b] + rest, sep)
  {
    var merged, split := [a + [sep] + b] + rest, [a, b] + rest;
    if rest != [] {
      assert merged[1..] == rest && split[1..][1..] == rest;
    } else {
      assert split[1..] == [b];
    }
  }

  /** `s.split(sep)` for a one-character separator: the pieces between separators. */
  function Split(s: string, sep: char): (r: seq<string>)
    ensures |r| >= 1
    decreases |s|
  {
    if |s| == 0 then [""]
    else if s[0] == sep then [""] + Split(s[1..], sep)
    else
      var rest := Split(s[1..], sep);
      [[s[0]] + rest[0]] + rest[1..]
  }

  lemma {:induction false} SplitNoSeparator(p: string, sep: char)
    requires sep !in p
    ensures Split(p, sep) == [p]
    decreases |p|
  {
    if p != [] {
      SplitNoSeparator(p[1..], sep);
      assert [p[0]] + p[1..] == p;
    }
  }

  lemma {:induction false} SplitAfterPiece(p: string, t: string, sep: char)
    requires sep !in p
    ensures Split(p + [sep] + t, sep) == [p] + Split(t, sep)
    decreases |p|
  {
    var s := p + [sep] + t;
    if p == [] {
      assert s[0] == sep && s[1..] == t;
    } else {
      assert s[0] == p[0] && s[1..] == p[1..] + [sep] + t;
      SplitAfterPiece(p[1..], t, sep);
      assert [p[0]] + p[1..] == p;
    }
  }

  /**
   * Joining and splitting on the same separator are inverse as long as no
   * piece contains the separator: no escaping is done, so this is the only
   * case in which the pieces can be recovered.
   */
  lemma {:induction false} SplitJoin(parts: seq<string>, sep: char)
    requires |parts| >= 1
    requires forall i :: 0 <= i < |parts| ==> sep !in parts[i]
    ensures Split(Join(parts, sep), sep) == parts
  {
    if |parts| == 1 {
      SplitNoSeparator(parts[0], sep);
    } else {
      SplitJoin(parts[1..], sep);
      SplitAfterPiece(parts[0], Join(parts[1..], sep), sep);
      assert [parts[0]] + parts[1..] == parts;
    }
  }

  /** ECMAScript's WhiteSpace and LineTerminator characters, the ones `trim` removes. */
  predicate IsJsSpace(c: char) {
    || c == ' ' || c == '\t' || c == '\n' || c == '\r'
    || c == '\U{000B}' || c == '\U{000C}' || c == '\U{00A0}' || c == '\U{1680}'
    || ('\U{2000}' <= c <= '\U{200A}')
    || c == '\U{2028}' || c == '\U{2029}' || c == '\U{202F}' || c == '\U{205F}'
    || c == '\U{3000}' || c == '\U{FEFF}'
  }

  predicate Blank(s: string) { forall i :: 0 <= i < |s| ==> IsJsSpace(s[i]) }

  function TrimStart(s: string): (r: string)
    ensures |r| <= |s| && r == s[|s| - |r|..]
    ensures r != [] ==> !IsJsSpace(r[0])
    ensures Blank(s[..|s| - |r|])
  {
    if s != [] && IsJsSpace(s[0]) then TrimStart(s[1..]) else s
  }

  function TrimEnd(s: string): (r: string)
    ensures |r| <= |s| && r == s[..|r|]
    ensures r != [] ==> !IsJsSpace(r[|r| - 1])
    ensures Blank(s[|r|..])
  {
    if s != [] && IsJsSpace(s[|s| - 1]) then TrimEnd(s[..|s| - 1]) else s
  }

  /** `r` is the part of `s` at offset `i`, with nothing but white space before and after it. */
  predicate BlankAround(s: string, i: int, r: string)
  {
    0 <= i <= |s| - |r| && r == s[i..i + |r|] && Blank(s[..i]) && Blank(s[i + |r|..])
  }

  /** `s.trim()`. */
  function Trim(s: string): (r: string)
    ensures |r| <= |s|
    ensures r != [] ==> !IsJsSpace(r[0]) && !IsJsSpace(r[|r| - 1])
    ensures exists i :: BlankAround(s, i, r)
  {
    var t := TrimStart(s);
    var r := TrimEnd(t);
    TrimmedSlice(s, t, r);
    r
  }

  /** Cutting blank text off the front and then off the back leaves a slice with blank text around it. */
  lemma TrimmedSlice(s: string, t: string, r: string)
    requires |t| <= |s| && t == s[|s| - |t|..] && Blank(s[..|s| - |t|])
    requires |r| <= |t| && r == t[..|r|] && Blank(t[|r|..])
    ensures BlankAround(s, |s| - |t|, r)
  {
    var i := |s| - |t|;
    assert r == s[i..i + |r|];
    assert s[i + |r|..] == t[|r|..];
  }

  lemma {:induction false} TrimStartEmptyIffBlank(s: string)
    ensures TrimStart(s) == [] <==> Blank(s)
  {
    if s != [] && IsJsSpace(s[0]) {
      TrimStartEmptyIffBlank(s[1..]);
      assert Blank(s) <==> Blank(s[1..]);
    }
  }

  lemma {:induction false} TrimEndEmptyIffBlank(s: string)
    ensures TrimEnd(s) == [] <==> Blank(s)
  {
    if s != [] && IsJsSpace(s[|s| - 1]) {
      TrimEndEmptyIffBlank(s[..|s| - 1]);
      assert Blank(s) <==> Blank(s[..|s| - 1]);
    }
  }

  /** `s.trim()` is empty exactly when every character of `s` is white space. */
  lemma TrimEmptyIffBlank(s: string)
    ensures Trim(s) == "" <==> Blank(s)
  {
    var a := TrimStart(s);
    TrimStartEmptyIffBlank(s);
    TrimEndEmptyIffBlank(a);
    assert a != [] ==> !Blank(a);
  }

  function AsciiLowerChar(c: char): (d: char)
  {
    if 'A' <= c <= 'Z' then (c as int + 32) as char else c
  }

  /** `s.toLowerCase()`, restricted to the ASCII letters A-Z. */
  function AsciiLower(s: string): (r: string)
    ensures |r| == |s|
    ensures forall i :: 0 <= i < |s| ==> r[i] == AsciiLowerChar(s[i])
  {
    seq(|s|, i requires 0 <= i < |s| => AsciiLowerChar(s[i]))
  }
}

=== FILE: wrappers.dfy ===
/** The optional value used wherever a JavaScript value may be `undefined` or `null`. */
module Wrappers {

  datatype Option<+T> = None | Some(value: T) {

    /** The value, or `default` when there is none (JavaScript's `x ?? default`). */
    function GetOr(default: T): T {
      match this
      case Some(v) => v
      case None => default
    }
  }
}
